=== FILE: README.md ===
# aorta — a Dafny model of the messaging core

This project models the core of `aorta`, a Python client for an AMQP event
bus. The modelled parts are:

- **The messaging backend** (`BaseMessagingBackend`). It keeps one sender
  and one receiver per Data Source Name (DSN, `host:port/channel`), read with
  the pattern `^(.*)\:([0-9]{1,5})/(.*)$`. It also keeps a delivery counter
  and an inbound queue. It stamps outgoing messages with an id, and destroys
  every handle it made.
- **`load`**, which resolves a backend given as a module, a dotted path, a
  class or an instance.
- **The listener.** It parses a message's header and builds the event, picks
  the handlers whose predicates accept it, and calls each of them. Failures
  are contained.
- **The two receivers with a duplicate window.** `IReceiver` keeps a window of the
  last 1000 message ids. The Qpid Proton `Receiver` forwards messages to the
  backend's queue.
- **The `Aorta` client.** It resolves its connection class and keeps one
  listener per channel.

Python values that cross module boundaries are the `PyValues.Value`
datatype: modules, classes with their MRO, instances, strings and ints.
The importable modules are an `Env` map passed as a parameter. Objects whose
attributes the source rebinds are classes:

- `BaseMessagingBackend`
- `Message`
- `Listener`
- `IReceiver`
- `Receiver`
- `Aorta`

Their dicts are insertion-ordered sequences of pairs (`OrderedDict.Dict`), so
the order in which `destroy` visits handles is kept. The `senders`, `receivers` and `listeners`
properties return these sequences as values, so a caller cannot change the
registries through them, as with the copies the source returns. The
`deliveries` property is the `deliveries` field itself. The following calls are
recorded in log fields of the objects that make them:

- calls into foreign objects: `handler.destroy()`, `sender.send(...)`,
  `handler.handle(event)`;
- the no-op hook `on_malformed_event`.

In two places the code does not do what its own structure and documentation
show it is for. The model follows the code, and Findings gives both versions:

- The Qpid Proton receiver creates a 2000-entry `seen` window
  (aorta/backends/qpid_proton/receiver.py:39) and drops a message found in it
  (receiver.py:57), so it is meant to drop repeats. Nothing ever adds to
  `seen`, so it forwards a message delivered twice.
- The docstring of `create_listener` (aorta/client.py:24-33) promises a
  listener, which the body caches and starts. The body calls `Listener`
  without the required `port`, so it raises a TypeError, and it never
  returns the listener.

The DSN pattern also accepts one trailing newline and drops it from the
channel. `DsnSyntax.TrailingNewlineDropped` states this.

## Model

| member | source | states |
|---|---|---|
| Text.RSplitDot | aorta/client.py:47 | `s.rsplit('.', 1)` unpacked into two names. It fails exactly when `s` has no '.'. Otherwise the parts joined by '.' give `s` back, and the right part has no '.'. |
| Text.RSplitDotUnique | aorta/backends/__init__.py:47 | For `s == left + "." + right` with no '.' in `right`, the split returns exactly `(left, right)`. |
| Text.NatToString | aorta/listener/base.py:22 | `str(n)` has at least one digit, only digits, no leading zero, and its decimal value is `n`. |
| Text.NatToStringLength | aorta/listener/base.py:22 | A number below 10^k prints in at most k digits. |
| PyValues.ImportModule | aorta/backends/__init__.py:42 | `import_module` succeeds exactly for a known name and yields that module's attributes. Otherwise it fails naming the module. |
| OrderedDict.Lookup | aorta/backends/base.py:59-61 | `d.get(k)` is None exactly when no entry has key `k`. Otherwise it is the value of an entry with key `k`. |
| OrderedDict.Insert | aorta/backends/base.py:60 | Storing a new key: it is found afterwards, keys stay distinct, and the value goes at the end of `values()`. |
| OrderedDict.LookupAppend | aorta/backends/base.py:60-61 | After storing `k`, reading `k` gives the new value, and every other key reads as before. |
| OrderedDict.LookupAt | aorta/backends/base.py:61 | With distinct keys, each entry is found by its own key. |
| DsnSyntax.Line | aorta/backends/base.py:57 | What `$` sees is the DSN itself or the DSN less one trailing newline. |
| DsnSyntax.LastSplit | aorta/backends/base.py:57 | The greedy `(.*)` host picks the last ':' followed by 1–5 digits and '/'. None means no ':' qualifies. |
| DsnSyntax.Parse | aorta/backends/base.py:57 | The regex match fails exactly when the text holds a newline (other than one trailing one) or no ':' qualifies. A match gives the host, a 1–5 digit port and the channel; they rebuild the text, no later split exists, and a DSN without a trailing newline is rebuilt exactly. |
| DsnSyntax.ParseFormat | aorta/backends/base.py:57 | Round trip: a well-formed `host:port/channel` parses back into the same three groups. |
| DsnSyntax.ParsedRoundTrip | aorta/backends/base.py:57 | The groups of any DSN that matches rebuild a DSN that matches to the same groups. |
| DsnSyntax.ParsedPartsRoundTrip | aorta/backends/base.py:57 | Parts that some DSN yields parse back from their own formatted DSN. |
| DsnSyntax.TrailingNewlineDropped | aorta/backends/base.py:57 | A DSN with one trailing newline still matches, to the same groups. So the newline is lost. |
| BackendBase.BaseMessagingBackend.constructor | aorta/backends/base.py:32-38 | A new backend has empty registries, no deliveries and an empty queue. |
| BackendBase.BaseMessagingBackend.RegisterDelivery | aorta/backends/base.py:40-42 | The delivery counter goes up by exactly one. |
| BackendBase.BaseMessagingBackend.Get | aorta/backends/base.py:47-49 | Returns the oldest queued tuple and removes it from the queue (FIFO). |
| BackendBase.BaseMessagingBackend.Put | aorta/backends/base.py:51-53 | The argument tuple is queued last. |
| BackendBase.BaseMessagingBackend.GetSender | aorta/backends/base.py:55-62 | A DSN that does not match fails and changes nothing. A cached DSN returns its sender unchanged. A new one gets exactly one new sender from the parsed host, port and channel, appended to the registry. In every success the registry maps the DSN to the result. |
| BackendBase.BaseMessagingBackend.Listen | aorta/backends/base.py:64-72 | The same rules for receivers, with the options passed to the factory. |
| BackendBase.BaseMessagingBackend.SendMessage | aorta/backends/base.py:82-96 | A message without an id that is not being forwarded gets the fresh id, even when the DSN then fails. A failing DSN sends nothing and changes no registry. Otherwise exactly one send goes to the DSN's cached sender. The sender registry is unchanged for a cached DSN, and grows by exactly the one new sender (and `created` by one) for a new DSN. |
| BackendBase.BaseMessagingBackend.Senders | aorta/backends/base.py:16-18 | The `senders` property holds each DSN once, each with a sender this backend made. |
| BackendBase.BaseMessagingBackend.Receivers | aorta/backends/base.py:20-22 | The `receivers` property holds each DSN once, each with a receiver this backend made. |
| BackendBase.BaseMessagingBackend.Listeners | aorta/backends/base.py:24-26 | The `listeners` property is empty: the registry is created at base.py:34 and never written. |
| BackendBase.BaseMessagingBackend.Destroy | aorta/backends/base.py:98-101 | `destroy()` reaches every sender and then every receiver, once each, in registration order. |
| BackendLoader.Load | aorta/backends/__init__.py:11-65 | Whatever `load` returns is an instance of a subclass of `BaseMessagingBackend`. |
| BackendLoader.LoadInstance | aorta/backends/__init__.py:60-61 | A backend instance is returned as it is. |
| BackendLoader.LoadClass | aorta/backends/__init__.py:56-59 | A backend class is instantiated with the arguments. Any other class is a TypeError. |
| BackendLoader.LoadOther | aorta/backends/__init__.py:62-63 | Any other value is a TypeError. |
| BackendLoader.LoadModule | aorta/backends/__init__.py:28-39 | A module without `MessagingBackend` is an ImportError. One whose `MessagingBackend` is not a backend class is a TypeError. Otherwise the result is that class loaded with the arguments. |
| BackendLoader.LoadModulePath | aorta/backends/__init__.py:40-43 | A module path loads the module's backend class without the arguments: `load(module)` drops them. |
| BackendLoader.LoadModulePathWrongType | aorta/backends/__init__.py:40-43 | A module path whose `MessagingBackend` is not a backend class is a TypeError, not retried as a class path. |
| BackendLoader.LoadDotlessFails | aorta/backends/__init__.py:44-49 | A dotless name that is not importable, or names a module without `MessagingBackend`, re-raises the original ImportError. |
| BackendLoader.LoadClassPath | aorta/backends/__init__.py:44-55 | A `module.Class` path that is not itself a module gives one of: the import error for the module, an ImportError for a missing attribute, or the attribute loaded with the arguments. |
| BackendLoader.LoadClassPathWrongType | aorta/backends/__init__.py:51-58 | A class path naming a class that is not a backend is a TypeError. |
| BackendLoader.UnitTestsByValue | tests/unit/test_backends_load.py:11-45 | The module, class, instance, `int` and `1` cases of the unit tests give the results they assert. |
| BackendLoader.UnitTestByModulePath | tests/unit/test_backends_load.py:16-18 | `load('aorta.backends.mock')` yields a mock backend instance. |
| BackendLoader.UnitTestMissingModuleAttribute | tests/unit/test_backends_load.py:32-33 | `load('aorta')` is an ImportError. |
| BackendLoader.UnitTestMissingClass | tests/unit/test_backends_load.py:35-36 | `load('aorta.MessagingBackend')` is an ImportError. |
| BackendLoader.UnitTestMissingModuleAndClass | tests/unit/test_backends_load.py:38-39 | `load('foo.bar')` is an ImportError. |
| BackendLoader.UnitTestExistingAttributeOfWrongType | tests/unit/test_backends_load.py:47-48 | `load('aorta.backends.ISender')` is a TypeError. |
| ListenerBase.LoadHeader | aorta/dto.py:4-7 | The header loads exactly when `sender_id` and `event_id` are UUID strings and `event_type` is a string. Otherwise the errors name exactly the failing fields. |
| ListenerBase.DecodeEvent | aorta/listener/base.py:93-98 | `_parse_event` raises MalformedEvent exactly when the header has errors. It raises the factory's failure exactly when the header is fine but building the event fails. Otherwise it yields the header and the built event. |
| ListenerBase.SelectFrom | aorta/listener/base.py:62-72 | The selected handlers are exactly those whose `is_valid_event` and `can_handle` both return truthy, in registration order, each once. |
| ListenerBase.ProbesFrom | aorta/listener/base.py:62-72 | `is_valid_event` is asked of every handler. `can_handle` is asked only after a truthy `is_valid_event`. |
| ListenerBase.ProbesInOrder | aorta/listener/base.py:62-72 | The calls go handler by handler, in list order, and each `can_handle` call comes straight after the `is_valid_event` call on the same handler. |
| ListenerBase.ProbesDecideSelection | aorta/listener/base.py:62-72 | A handler is selected exactly when it was asked `can_handle`, which happens only after a truthy `is_valid_event`, and answered truthy. |
| ListenerBase.ChannelOrDefault | aorta/listener/base.py:49 | `channel or EVENTS_CHANNEL`: a missing or empty channel becomes `events.global`. Any other channel is kept. |
| ListenerBase.Listener.constructor | aorta/listener/base.py:28-57 | The fields are as given. Missing events and handlers become empty lists. Nothing has been received or started. |
| ListenerBase.Listener.Address | aorta/listener/base.py:24-26 | The URL is the address followed by `/channel`. |
| ListenerBase.Listener.Url | aorta/listener/base.py:20-22 | For a port of at most five digits, a host without a newline and a channel without ':' or a newline, the URL parses back to the listener's own host, port and channel. |
| ListenerBase.Listener.Start | aorta/listener/base.py:59-60 | Starting succeeds only the first time, and the listener is started afterwards. |
| ListenerBase.Listener.OnMalformedEvent | aorta/listener/base.py:101-102 | The hook is called with the message. |
| ListenerBase.Listener.ParseEvent | aorta/listener/base.py:93-98 | The result is the decoded event or its failure. The malformed hook runs exactly when the header has errors. |
| ListenerBase.Listener.InvocationsFor | aorta/listener/base.py:77-91 | A message with header errors, or whose event cannot be built, calls no handler. Otherwise every handler that applies to the event is called, every handler called applies, each once in registration order, and each call is `handle(event)` with its outcome. |
| ListenerBase.Listener.OnEvent | aorta/listener/base.py:77-91 | Every message is counted. The malformed hook runs for header errors. Otherwise `handle` is called on exactly the selected handlers, in order, whatever `Exception` they raise. |
| DedupWindow.Remember | aorta/listener/ireceiver.py:10 | Appending to a bounded deque keeps the last `cap` entries of the old window plus the new item, which comes last. |
| DedupWindow.Deliver | aorta/listener/ireceiver.py:28-31 | An id is accepted exactly when it is not in the window. A duplicate leaves the window as it was. An accepted id makes it the last `cap` entries of the old window plus that id. The window stays bounded, stays free of repeats, and holds an accepted id afterwards. |
| DedupWindow.RememberDistinct | aorta/listener/ireceiver.py:31 | Appending a new id keeps the window free of repeats. |
| DedupWindow.Replay | aorta/listener/ireceiver.py:22-36 | However many messages arrive, the window never holds more than `cap` ids. |
| DedupWindow.LastNAppend | aorta/listener/ireceiver.py:10 | Trimming the window before appending loses nothing that the last `cap` entries keep. |
| DedupWindow.ReplayFresh | aorta/listener/ireceiver.py:28-31 | While ids do not repeat, the window is exactly the last `cap` ids delivered. |
| DedupWindow.RemembersRecent | aorta/listener/ireceiver.py:28-31 | An id accepted when new, and seen again after fewer than `cap` other deliveries (repeated or not), is dropped. |
| DedupWindow.StaysWithin | aorta/listener/ireceiver.py:28-31 | The entry at position `p` of the window (0 = oldest) stays through any further deliveries numbering at most `cap - (|w| - p)`; the newest survives `cap - 1`. |
| DedupWindow.ForgetsAfterCapacity | aorta/listener/ireceiver.py:28-31 | An id comes back and is accepted again after `cap` or more further ids, each new to the window when delivered and none repeated. |
| ListenerIReceiver.IReceiver.constructor | aorta/listener/ireceiver.py:7-11 | A new receiver has an empty window bound to its listener. |
| ListenerIReceiver.IReceiver.GetOptions | aorta/listener/ireceiver.py:13-17 | There are no connection options. |
| ListenerIReceiver.IReceiver.OnMessage | aorta/listener/ireceiver.py:22-36 | A duplicate id is dropped with nothing changed. A new id is remembered in the bounded window. A non-event then fails the type assertion without reaching the listener. An event goes through the listener's `on_event`, with exactly its effects. |
| QpidProtonReceiver.Receiver.constructor | aorta/backends/qpid_proton/receiver.py:29-40 | The receiver is bound to its backend, DSN parts and id, with an empty `seen`. |
| QpidProtonReceiver.Receiver.Address | aorta/backends/qpid_proton/receiver.py:15-17 | The address followed by `/channel` is the DSN built from the receiver's host, port and channel, and it is what `dsn` returns. |
| QpidProtonReceiver.Receiver.Dsn | aorta/backends/qpid_proton/receiver.py:19-21 | The receiver's DSN parses back to its host, port and channel when they are well formed, and whenever they are the groups of some DSN that matches, ':' in the channel included. |
| QpidProtonReceiver.Receiver.OnMessage | aorta/backends/qpid_proton/receiver.py:55-62 | A message in `seen` is dropped. Any other is queued on the backend as `(receiver_id, msg)`. `seen` is left unchanged. |
| QpidProtonReceiver.SecondDeliveryForwarded | aorta/backends/qpid_proton/receiver.py:55-62 | As written, the same message delivered twice is queued twice. |
| QpidProtonReceiver.Receiver.OnMessageRemembering | aorta/backends/qpid_proton/receiver.py:39 | Corrected `on_message`: a message in the 2000-entry window is dropped. Any other is remembered and queued once. |
| QpidProtonReceiver.SecondDeliveryDropped | aorta/backends/qpid_proton/receiver.py:55-62 | With the correction, the second delivery is dropped and the message is queued once. |
| Client.SetupConnection | aorta/client.py:44-63 | A connection is always an instance of a `BaseConnection` subclass, built with `(host, port)`. A dotless string is a ValueError. A class is accepted exactly when it derives from `BaseConnection`. Any other non-string is an AssertionError. |
| Client.SetupConnectionPath | aorta/client.py:45-59 | A dotted path gives one of: an ImportError for a missing module, an ImportError for a missing class, a TypeError for a non-class attribute, or the named class set up directly. |
| Client.PathAndClassAgree | aorta/client.py:45-63 | A path naming a class succeeds exactly when that class derives from `BaseConnection`. |
| Client.Aorta.Make | aorta/client.py:11-14 | A client holds its host, port and connection, with no listeners. |
| Client.Aorta.Create | aorta/client.py:11-18 | No connection class is a TypeError. Otherwise the client exists exactly when its connection can be set up, and fails with that setup's error when it cannot. |
| Client.Aorta.CreateListenerAsWritten | aorta/client.py:23-41 | As written, an uncached channel always raises a TypeError and caches nothing. A cached one returns None, or fails on the missing `wait` when `block` is set. |
| Client.Aorta.CreateListener | aorta/client.py:23-41 | Corrected: the first request for a channel makes, caches and starts one listener on the client's host and port. Every later request returns that same listener. |

## Left out

- Threads, locks and the Qpid Proton reactor (containers, links, `Receiver.create`, `Receiver.destroy`, `on_start`, `Listener.on_start`): concurrency and foreign I/O. Each operation is modelled as one atomic step.
- `generate_message_id` and the receiver's `uuid4().hex` draw randomness. They are parameters (`freshId`, `receiverId`).
- The sender and receiver factories (`create_sender`, `create_receiver`) call classes outside this model: `receiver_class` is never defined in the base class. A new handle is known by its creation order and its arguments, and `send`/`destroy` on it are logged calls. The factories are taken to succeed. On the base class itself, `receiver_class` (base.py:74-76) is missing and `sender_class` is None (base.py:14), so `listen` and `get_sender` would fail there with AttributeError. `GetSender` and `Listen` always make a new handle instead.
- BackendBase.BaseMessagingBackend.SendMessage: returns only success or the DSN failure. The value `sender.send` returns, and its blocking and timeout behaviour, belong to the sender, which is not part of this model.
- BackendBase.BaseMessagingBackend.Get: requires a non-empty queue, where the source blocks until an item arrives.
- BackendLoader.Load: Python's recursion limit is modelled as a `stack` budget that ends in a RecursionError. Keyword arguments are not modelled. Constructors of backend classes are taken to succeed.
- A concrete version of the unit test `test_load_by_class_name` is not stated. `BackendLoader.LoadClassPath` covers it in general.
- `importlib.import_module` is a lookup in the module map. Relative names, an empty module name, and import side effects are not modelled.
- The header adapter and the event factory (`eda`) are parameters: a UUID check and a factory that may fail.
- ListenerBase.LoadHeader: the order and wording of the adapter's error messages are not modelled, only which fields fail.
- Logging is not modelled, and neither is the listener's `exception`/`consumer_events` bookkeeping, which nothing in the core writes.
- `create_publisher` has an empty body. `Listener.wait`, called by `create_listener(block=True)`, does not exist, and the corrected `Client.Aorta.CreateListener` leaves `block` out.
- Client.SetupConnection: the connection class's constructor is taken to succeed.
- ListenerBase.Listener.OnEvent: `Raised` stands only for an `Exception` subclass, which `except Exception` catches. SystemExit, KeyboardInterrupt and other `BaseException` raises end `on_event` in the source and are not modelled.
- Python `assert` statements are taken to be enabled. The AssertionError paths at aorta/listener/ireceiver.py:34 and aorta/client.py:61-62 do not exist under `python -O`. There a non-event is forwarded, and a class that is not a `BaseConnection` is instantiated.
- Handlers are pure functions of the event. A handler that mutates the listener while the handler generator is running is not modelled.

## Findings

| source | as written | input that shows it | evidently intended | confidence | as-written member | corrected member |
|---|---|---|---|---|---|---|
| aorta/client.py:36 | `create_listener` builds `Listener(self, channel)`: the client becomes `sender_id` and the channel becomes `host`, and the required `port` is missing. So it raises a TypeError, and it returns None even when it succeeds. | any client, `create_listener('events.global')` | build the listener from a sender id and the client's host and port, cache it, start it, and return it | high, not executed | Client.Aorta.CreateListenerAsWritten | Client.Aorta.CreateListener |
| aorta/backends/qpid_proton/receiver.py:57 | `on_message` tests `msg in self.seen`, but nothing ever appends to `seen`, so duplicates are never dropped | the same message object delivered twice | remember each accepted message in the 2000-entry window before forwarding it. The membership test compares message objects, so the correction drops a redelivery of the same object, unlike `IReceiver`, which compares ids. | medium, not executed | QpidProtonReceiver.SecondDeliveryForwarded | QpidProtonReceiver.SecondDeliveryDropped |

=== FILE: backend_base.dfy ===
/**
  * `BaseMessagingBackend`: the registries of senders and receivers keyed by
  * DSN, the delivery counter, the inbound queue, id assignment on send, and
  * teardown of every handle.
  */
module BackendBase {
  import opened Wrappers
  import opened PyValues
  import opened OrderedDict
  import opened Messages
  import DsnSyntax

  datatype HandleKind = SenderHandle | ReceiverHandle

  /**
    * A sender or receiver as returned by the `create_sender` and
    * `create_receiver` factories: the factories are foreign, so a handle is
    * known by the order of its creation (`serial`) and its arguments.
    */
  datatype Handle = Handle(kind: HandleKind, serial: nat, host: string, port: string, channel: string, options: Value)

  /** One call `sender.send(message, blocking=..., timeout=...)`. */
  datatype SendCall = SendCall(sender: Handle, message: Message, blocking: bool, timeout: Value)

  /** One positional argument of `put(*args)`. */
  datatype Arg = StrArg(s: string) | MsgArg(m: Message)

  /** `re.match` found no match, so `.groups()` fails on None. */
  datatype BackendError = NoDsnMatch(dsn: string)

  /** A registry keyed by distinct DSNs whose handles are all of `kind` and among the first `created` made. */
  ghost predicate Registry(d: Dict<string, Handle>, kind: HandleKind, created: nat) {
    && DistinctKeys(d)
    && forall i :: 0 <= i < |d| ==> d[i].1.kind == kind && d[i].1.serial < created
  }

  /** Registering the next handle under a new DSN keeps a registry well formed. */
  lemma RegistryInsert(d: Dict<string, Handle>, dsn: string, h: Handle, kind: HandleKind, created: nat)
    requires Registry(d, kind, created) && Lookup(d, dsn).None?
    requires h.kind == kind && h.serial == created
    ensures Registry(Insert(d, dsn, h), kind, created + 1)
  {
    var d' := Insert(d, dsn, h);
    assert d' == d + [(dsn, h)];
    forall i | 0 <= i < |d'|
      ensures d'[i].1.kind == kind && d'[i].1.serial < created + 1
    {
      if i < |d| {
        assert d'[i] == d[i];
      }
    }
  }

  /** Making a handle elsewhere keeps a registry well formed. */
  lemma RegistryGrow(d: Dict<string, Handle>, kind: HandleKind, created: nat)
    requires Registry(d, kind, created)
    ensures Registry(d, kind, created + 1)
  {
  }

  class BaseMessagingBackend {
    var senders: Dict<string, Handle>
    var receivers: Dict<string, Handle>
    /** Declared by the source and never written. */
    var listeners: Dict<string, Value>
    var deliveries: nat
    /** The inbound queue, oldest tuple first. */
    var incoming: seq<seq<Arg>>
    /** How many handles the factories have made. */
    var created: nat
    /** The handles whose `destroy()` has been called, in call order. */
    var destroyed: seq<Handle>
    /** The `sender.send(...)` calls made, in order. */
    var sent: seq<SendCall>

    /**
      * Each DSN once per registry; every handle of the right kind and made by
      * a factory of this backend; no listener registered.
      */
    ghost predicate Valid()
      reads this
    {
      && Registry(senders, SenderHandle, created) && Registry(receivers, ReceiverHandle, created)
      && listeners == []
    }

    constructor ()
      ensures Valid()
      ensures senders == [] && receivers == [] && listeners == []
      ensures deliveries == 0 && incoming == []
      ensures created == 0 && destroyed == [] && sent == []
    {
      senders, receivers, listeners := [], [], [];
      deliveries := 0;
      incoming := [];
      created, destroyed, sent := 0, [], [];
    }

    /**
      * The `senders` property: the registry as a value, so callers cannot
      * change it. Each DSN appears once, with a sender this backend made.
      */
    function Senders(): (r: Dict<string, Handle>)
      reads this
      ensures Valid() ==> Registry(r, SenderHandle, created)
    {
      senders
    }

    /** The `receivers` property: each DSN once, with a receiver this backend made. */
    function Receivers(): (r: Dict<string, Handle>)
      reads this
      ensures Valid() ==> Registry(r, ReceiverHandle, created)
    {
      receivers
    }

    /** The `listeners` property: nothing ever registers a listener, so it is empty. */
    function Listeners(): (r: Dict<string, Value>)
      reads this
      ensures Valid() ==> r == []
    {
      listeners
    }

    /** Counts one confirmed delivery. */
    method RegisterDelivery()
      modifies this`deliveries
      ensures deliveries == old(deliveries) + 1
    {
      deliveries := deliveries + 1;
    }

    /** Takes the oldest tuple off the inbound queue. */
    method Get() returns (args: seq<Arg>)
      requires incoming != []
      modifies this`incoming
      ensures args == old(incoming)[0] && incoming == old(incoming)[1..]
    {
      args := incoming[0];
      incoming := incoming[1..];
    }

    /** `put(*args)`: enqueues the argument tuple as one item. */
    method Put(args: seq<Arg>)
      modifies this`incoming
      ensures incoming == old(incoming) + [args]
    {
      incoming := incoming + [args];
    }

    /** What a factory of the given kind makes next for the parsed DSN. */
    function NextHandle(kind: HandleKind, p: DsnSyntax.Parts, options: Value): Handle
      reads this
    {
      Handle(kind, created, p.host, p.port, p.channel, options)
    }

    /** The sender for `dsn`: made and cached on first use, then the cached one. */
    method GetSender(dsn: string) returns (r: Result<Handle, BackendError>)
      requires Valid()
      modifies this`senders, this`created
      ensures Valid()
      ensures DsnSyntax.Parse(dsn).None? ==>
        r == Err(NoDsnMatch(dsn)) && senders == old(senders) && created == old(created)
      ensures DsnSyntax.Parse(dsn).Some? && Lookup(old(senders), dsn).Some? ==>
        r == Ok(Lookup(old(senders), dsn).value) && senders == old(senders) && created == old(created)
      ensures DsnSyntax.Parse(dsn).Some? && Lookup(old(senders), dsn).None? ==>
        && r == Ok(old(NextHandle(SenderHandle, DsnSyntax.Parse(dsn).value, PyNone)))
        && senders == old(senders) + [(dsn, r.value)]
        && created == old(created) + 1
      ensures r.Ok? ==> Lookup(senders, dsn) == Some(r.value)
    {
      var parts := DsnSyntax.Parse(dsn);
      if parts.None? {
        return Err(NoDsnMatch(dsn));
      }
      var cached := Lookup(senders, dsn);
      if cached.Some? {
        return Ok(cached.value);
      }
      var h := NextHandle(SenderHandle, parts.value, PyNone);
      RegistryInsert(senders, dsn, h, SenderHandle, created);
      RegistryGrow(receivers, ReceiverHandle, created);
      senders := Insert(senders, dsn, h);
      created := created + 1;
      r := Ok(h);
    }

    /** The receiver for `dsn`: made with `options` and cached on first use, then the cached one. */
    method Listen(dsn: string, options: Value) returns (r: Result<Handle, BackendError>)
      requires Valid()
      modifies this`receivers, this`created
      ensures Valid()
      ensures DsnSyntax.Parse(dsn).None? ==>
        r == Err(NoDsnMatch(dsn)) && receivers == old(receivers) && created == old(created)
      ensures DsnSyntax.Parse(dsn).Some? && Lookup(old(receivers), dsn).Some? ==>
        r == Ok(Lookup(old(receivers), dsn).value) && receivers == old(receivers) && created == old(created)
      ensures DsnSyntax.Parse(dsn).Some? && Lookup(old(receivers), dsn).None? ==>
        && r == Ok(old(NextHandle(ReceiverHandle, DsnSyntax.Parse(dsn).value, options)))
        && receivers == old(receivers) + [(dsn, r.value)]
        && created == old(created) + 1
      ensures r.Ok? ==> Lookup(receivers, dsn) == Some(r.value)
    {
      var parts := DsnSyntax.Parse(dsn);
      if parts.None? {
        return Err(NoDsnMatch(dsn));
      }
      var cached := Lookup(receivers, dsn);
      if cached.Some? {
        return Ok(cached.value);
      }
      var h := NextHandle(ReceiverHandle, parts.value, options);
      RegistryInsert(receivers, dsn, h, ReceiverHandle, created);
      RegistryGrow(senders, SenderHandle, created);
      receivers := Insert(receivers, dsn, h);
      created := created + 1;
      r := Ok(h);
    }

    /**
      * Assigns `freshId` (the source draws a uuid4) when the message has no id
      * and is not being forwarded, then hands it to the sender for `dsn`.
      */
    method SendMessage(dsn: string, message: Message, block: bool, timeout: Value, forward: bool, freshId: string)
      returns (r: Result<(), BackendError>)
      requires Valid()
      modifies this`senders, this`created, this`sent, message
      ensures Valid()
      ensures message.id == if old(message.id).None? && !forward then Some(freshId) else old(message.id)
      ensures DsnSyntax.Parse(dsn).None? ==>
        r.Err? && senders == old(senders) && created == old(created) && sent == old(sent)
      ensures DsnSyntax.Parse(dsn).Some? ==>
        && r.Ok?
        && Lookup(senders, dsn).Some?
        && sent == old(sent) + [SendCall(Lookup(senders, dsn).value, message, block, timeout)]
      ensures DsnSyntax.Parse(dsn).Some? && Lookup(old(senders), dsn).Some? ==>
        senders == old(senders) && created == old(created)
      ensures DsnSyntax.Parse(dsn).Some? && Lookup(old(senders), dsn).None? ==>
        && senders == old(senders) + [(dsn, old(NextHandle(SenderHandle, DsnSyntax.Parse(dsn).value, PyNone)))]
        && created == old(created) + 1
    {
      if message.id.None? && !forward {
        message.id := Some(freshId);
      }
      var sender := GetSender(dsn);
      if sender.Err? {
        return Err(sender.error);
      }
      sent := sent + [SendCall(sender.value, message, block, timeout)];
      r := Ok(());
    }

    /** Calls `destroy()` once on every sender, then on every receiver. */
    method Destroy()
      modifies this`destroyed
      ensures destroyed == old(destroyed) + Values(senders) + Values(receivers)
    {
      var handles := Values(Senders()) + Values(Receivers());
      var i := 0;
      while i < |handles|
        invariant 0 <= i <= |handles|
        invariant destroyed == old(destroyed) + handles[..i]
      {
        destroyed := destroyed + [handles[i]];
        i := i + 1;
      }
    }
  }
}

=== FILE: backend_loader.dfy ===
/**
  * `aorta.backends.load`: resolves a backend given as a module, a module path,
  * a `module.Class` path, a class or an instance into a backend instance.
  */
module BackendLoader {
  import opened Wrappers
  import opened Text
  import opened PyValues

  /** The qualified name of the base every backend class inherits from. */
  const BACKEND_BASE := "aorta.backends.base.BaseMessagingBackend"

  /** The attribute a backend module must expose. */
  const BACKEND_ATTR := "MessagingBackend"

  datatype LoadError =
    | ImportError(failure: ImportFailure)
    /** "Invalid backend class." */
    | TypeError
    /** Python's recursion limit, reached only through string attributes that name each other. */
    | RecursionError

  /**
    * `load(backend, *args)`, with `stack` the recursion depth Python still
    * allows. The branches are tried in the source's order: module, string,
    * class, backend instance, anything else.
    */
  function Load(backend: Value, args: seq<Value>, env: Env, stack: nat): (r: Result<Value, LoadError>)
    ensures r.Ok? ==> IsInstance(r.value, BACKEND_BASE)
    decreases stack
  {
    if stack == 0 then Err(RecursionError)
    else
      match backend
      case Module(name, attrs) =>
        if BACKEND_ATTR !in attrs then Err(ImportError(NoMessagingBackend(name)))
        else if !IsSubclass(attrs[BACKEND_ATTR], BACKEND_BASE) then Err(TypeError)
        else Load(attrs[BACKEND_ATTR], args, env, stack - 1)
      case Str(s) =>
        // First read the string as a module name, loaded without the extra arguments.
        var first := match ImportModule(env, s)
          case Ok(m) => Load(m, [], env, stack - 1)
          case Err(failure) => Err(ImportError(failure));
        if !(first.Err? && first.error.ImportError?) then first
        else
          // On an ImportError, read it as `module.path.ClassName`.
          (match RSplitDot(s)
           case None => first
           case Some((moduleName, className)) =>
             if moduleName !in env then Err(ImportError(NoModuleNamed(moduleName)))
             else if className !in env[moduleName] then Err(ImportError(NoAttribute(moduleName, className)))
             else Load(env[moduleName][className], args, env, stack - 1))
      case Class(_, mro) =>
        if BACKEND_BASE !in mro then Err(TypeError) else Ok(Instantiate(backend, args))
      case _ =>
        if IsInstance(backend, BACKEND_BASE) then Ok(backend) else Err(TypeError)
  }

  /** A backend instance is returned unchanged. */
  lemma LoadInstance(backend: Value, args: seq<Value>, env: Env, stack: nat)
    requires IsInstance(backend, BACKEND_BASE) && stack >= 1
    ensures Load(backend, args, env, stack) == Ok(backend)
  {
  }

  /** A class is instantiated with the extra arguments if it is a backend class, and refused otherwise. */
  lemma LoadClass(cls: Value, args: seq<Value>, env: Env, stack: nat)
    requires cls.Class? && stack >= 1
    ensures IsSubclass(cls, BACKEND_BASE) ==> Load(cls, args, env, stack) == Ok(Instance(cls.name, cls.mro, args))
    ensures !IsSubclass(cls, BACKEND_BASE) ==> Load(cls, args, env, stack) == Err(TypeError)
  {
  }

  /** Anything that is neither module, string, class nor backend instance is refused. */
  lemma LoadOther(v: Value, args: seq<Value>, env: Env, stack: nat)
    requires !v.Module? && !v.Str? && !v.Class? && !IsInstance(v, BACKEND_BASE) && stack >= 1
    ensures Load(v, args, env, stack) == Err(TypeError)
  {
  }

  /**
    * A module needs a `MessagingBackend` attribute (else ImportError) that is
    * a backend class (else TypeError); that class is then instantiated.
    */
  lemma LoadModule(name: string, attrs: map<string, Value>, args: seq<Value>, env: Env, stack: nat)
    requires stack >= 2
    ensures BACKEND_ATTR !in attrs ==>
      Load(Module(name, attrs), args, env, stack) == Err(ImportError(NoMessagingBackend(name)))
    ensures BACKEND_ATTR in attrs && !IsSubclass(attrs[BACKEND_ATTR], BACKEND_BASE) ==>
      Load(Module(name, attrs), args, env, stack) == Err(TypeError)
    ensures BACKEND_ATTR in attrs && IsSubclass(attrs[BACKEND_ATTR], BACKEND_BASE) ==>
      Load(Module(name, attrs), args, env, stack) == Ok(Instantiate(attrs[BACKEND_ATTR], args))
  {
    if BACKEND_ATTR in attrs && IsSubclass(attrs[BACKEND_ATTR], BACKEND_BASE) {
      LoadClass(attrs[BACKEND_ATTR], args, env, stack - 1);
    }
  }

  /**
    * A string naming a module with a backend class loads through that module,
    * and the extra arguments are dropped on the way.
    */
  lemma LoadModulePath(path: string, args: seq<Value>, env: Env, stack: nat)
    requires path in env && BACKEND_ATTR in env[path] && IsSubclass(env[path][BACKEND_ATTR], BACKEND_BASE)
    requires stack >= 3
    ensures Load(Str(path), args, env, stack) == Ok(Instantiate(env[path][BACKEND_ATTR], []))
  {
    LoadModule(path, env[path], [], env, stack - 1);
  }

  /**
    * A string naming a module whose `MessagingBackend` is the wrong kind of
    * object fails with TypeError; the fallback is not tried.
    */
  lemma LoadModulePathWrongType(path: string, args: seq<Value>, env: Env, stack: nat)
    requires path in env && BACKEND_ATTR in env[path] && !IsSubclass(env[path][BACKEND_ATTR], BACKEND_BASE)
    requires stack >= 3
    ensures Load(Str(path), args, env, stack) == Err(TypeError)
  {
    LoadModule(path, env[path], [], env, stack - 1);
  }

  /**
    * When the string does not load as a module, and has no '.', the original
    * ImportError is raised again: the missing module, or the module without
    * a `MessagingBackend`.
    */
  lemma LoadDotlessFails(path: string, args: seq<Value>, env: Env, stack: nat)
    requires '.' !in path && stack >= 3
    requires path !in env || BACKEND_ATTR !in env[path]
    ensures path !in env ==> Load(Str(path), args, env, stack) == Err(ImportError(NoModuleNamed(path)))
    ensures path in env ==> Load(Str(path), args, env, stack) == Err(ImportError(NoMessagingBackend(path)))
  {
    if path in env {
      LoadModule(path, env[path], [], env, stack - 1);
    }
  }

  /**
    * The `module.path.ClassName` fallback: split at the last '.', a missing
    * module or a missing attribute is an ImportError, an existing attribute
    * is loaded with the extra arguments.
    */
  lemma LoadClassPath(path: string, moduleName: string, className: string, args: seq<Value>, env: Env, stack: nat)
    requires path == moduleName + "." + className && '.' !in className
    requires path !in env && stack >= 2
    ensures moduleName !in env ==>
      Load(Str(path), args, env, stack) == Err(ImportError(NoModuleNamed(moduleName)))
    ensures moduleName in env && className !in env[moduleName] ==>
      Load(Str(path), args, env, stack) == Err(ImportError(NoAttribute(moduleName, className)))
    ensures moduleName in env && className in env[moduleName] ==>
      Load(Str(path), args, env, stack) == Load(env[moduleName][className], args, env, stack - 1)
  {
    RSplitDotUnique(path, moduleName, className);
  }

  /** A path that names a class which is not a backend class fails with TypeError, not ImportError. */
  lemma LoadClassPathWrongType(path: string, moduleName: string, className: string, args: seq<Value>, env: Env, stack: nat)
    requires path == moduleName + "." + className && '.' !in className
    requires path !in env && moduleName in env && className in env[moduleName]
    requires env[moduleName][className].Class? && !IsSubclass(env[moduleName][className], BACKEND_BASE)
    requires stack >= 2
    ensures Load(Str(path), args, env, stack) == Err(TypeError)
  {
    LoadClassPath(path, moduleName, className, args, env, stack);
    LoadClass(env[moduleName][className], args, env, stack - 1);
  }

  /** The class `aorta.backends.mock.MockMessagingBackend` of the unit tests. */
  const MOCK := Class("aorta.backends.mock.MockMessagingBackend",
                      {"aorta.backends.mock.MockMessagingBackend", BACKEND_BASE, "object"})

  /** The modules the unit tests import from. */
  const TEST_ENV: Env := map[
    "aorta" := map[],
    "aorta.backends" := map["ISender" := Class("aorta.backends.isender.ISender", {"aorta.backends.isender.ISender", "object"})],
    "aorta.backends.mock" := map[BACKEND_ATTR := MOCK, "MockMessagingBackend" := MOCK]
  ]

  /** The unit tests that pass a module, a class or an instance, or a non-backend value. */
  lemma UnitTestsByValue()
    ensures Load(Module("mock", map[BACKEND_ATTR := Class("object", {"object"})]), [], TEST_ENV, 10) == Err(TypeError)
    ensures Load(MOCK, [], TEST_ENV, 10) == Ok(Instance(MOCK.name, MOCK.mro, []))
    ensures Load(Instance(MOCK.name, MOCK.mro, []), [], TEST_ENV, 10) == Ok(Instance(MOCK.name, MOCK.mro, []))
    ensures Load(Class("int", {"int", "object"}), [], TEST_ENV, 10) == Err(TypeError)
    ensures Load(Int(1), [], TEST_ENV, 10) == Err(TypeError)
  {
  }

  /** The unit test that loads a backend by module path. */
  lemma UnitTestByModulePath()
    ensures Load(Str("aorta.backends.mock"), [], TEST_ENV, 10) == Ok(Instance(MOCK.name, MOCK.mro, []))
  {
    LoadModulePath("aorta.backends.mock", [], TEST_ENV, 10);
  }

  /** The unit test that loads a module without a `MessagingBackend`. */
  lemma UnitTestMissingModuleAttribute()
    ensures Load(Str("aorta"), [], TEST_ENV, 10) == Err(ImportError(NoMessagingBackend("aorta")))
  {
    LoadDotlessFails("aorta", [], TEST_ENV, 10);
  }

  /** The unit test that names a missing class of an existing module. */
  lemma UnitTestMissingClass()
    ensures Load(Str("aorta.MessagingBackend"), [], TEST_ENV, 10) == Err(ImportError(NoAttribute("aorta", BACKEND_ATTR)))
  {
    var path := "aorta.MessagingBackend";
    assert path == "aorta" + "." + BACKEND_ATTR;
    assert path !in TEST_ENV;
    LoadClassPath(path, "aorta", BACKEND_ATTR, [], TEST_ENV, 10);
  }

  /** The unit test that names a missing module. */
  lemma UnitTestMissingModuleAndClass()
    ensures Load(Str("foo.bar"), [], TEST_ENV, 10) == Err(ImportError(NoModuleNamed("foo")))
  {
    var path := "foo.bar";
    assert path == "foo" + "." + "bar";
    assert path !in TEST_ENV;
    LoadClassPath(path, "foo", "bar", [], TEST_ENV, 10);
  }

  /** The unit test that names an existing attribute which is not a backend class. */
  lemma UnitTestExistingAttributeOfWrongType()
    ensures Load(Str("aorta.backends.ISender"), [], TEST_ENV, 10) == Err(TypeError)
  {
    var path := "aorta.backends.ISender";
    assert path == "aorta.backends" + "." + "ISender";
    assert path !in TEST_ENV;
    LoadClassPathWrongType(path, "aorta.backends", "ISender", [], TEST_ENV, 10);
  }
}

=== FILE: client.dfy ===
/**
  * `Aorta`, the client entry point: resolves and instantiates its connection
  * class, and keeps one listener per channel.
  */
module Client {
  import opened Wrappers
  import opened Text
  import opened PyValues
  import opened OrderedDict
  import opened ListenerBase

  /** The class every connection class must derive from. */
  const CONNECTION_BASE := "aorta.connection.BaseConnection"

  const MISSING_CONNECTION_CLASS := "The connection_class argument is required."
  const NOT_A_DOTTED_PATH := "Please specify a connection class or a dotted-path."

  /** What the client's constructor or `create_listener` raises. */
  datatype ClientError =
    | TypeError(message: string)
    | ValueError(message: string)
    | ImportError(failure: ImportFailure)
    | AttributeError(name: string)
    | AssertionError

  /** The message of the TypeError for a path naming something that is not a class; the source has no space before "must". */
  function NotAClassMessage(className: string): string {
    className + "must inherit from aorta.connection.BaseConnection"
  }

  /**
    * `_setup_connection(connection_class)`: a dotted path is resolved by
    * importing the module before the last '.' and taking the attribute after
    * it; whatever results must be a subclass of `BaseConnection`, and is
    * instantiated with the client's host and port.
    */
  function SetupConnection(cc: Value, host: string, port: int, env: Env): (r: Result<Value, ClientError>)
    ensures r.Ok? ==> IsInstance(r.value, CONNECTION_BASE) && r.value.args == [Str(host), Int(port)]
    ensures cc.Str? && '.' !in cc.s ==> r == Err(ValueError(NOT_A_DOTTED_PATH))
    ensures cc.Class? ==> r == if IsSubclass(cc, CONNECTION_BASE) then Ok(Instantiate(cc, [Str(host), Int(port)])) else Err(AssertionError)
    ensures !cc.Str? && !cc.Class? ==> r == Err(AssertionError)
  {
    var resolved: Result<Value, ClientError> :=
      if cc.Str? then
        match RSplitDot(cc.s)
        case None => Err(ValueError(NOT_A_DOTTED_PATH))
        case Some((moduleName, className)) =>
          if moduleName !in env then Err(ImportError(NoModuleNamed(moduleName)))
          else if className !in env[moduleName] then Err(ImportError(NoAttribute(moduleName, className)))
          else if !env[moduleName][className].Class? then Err(TypeError(NotAClassMessage(className)))
          else Ok(env[moduleName][className])
      else Ok(cc);
    match resolved
    case Err(e) => Err(e)
    case Ok(c) =>
      if !c.Class? || !IsSubclass(c, CONNECTION_BASE) then Err(AssertionError)
      else Ok(Instantiate(c, [Str(host), Int(port)]))
  }

  /** Every way a dotted path can resolve, by what the module holds under the class name. */
  lemma SetupConnectionPath(path: string, moduleName: string, className: string, host: string, port: int, env: Env)
    requires path == moduleName + "." + className && '.' !in className
    ensures moduleName !in env ==>
      SetupConnection(Str(path), host, port, env) == Err(ImportError(NoModuleNamed(moduleName)))
    ensures moduleName in env && className !in env[moduleName] ==>
      SetupConnection(Str(path), host, port, env) == Err(ImportError(NoAttribute(moduleName, className)))
    ensures moduleName in env && className in env[moduleName] && !env[moduleName][className].Class? ==>
      SetupConnection(Str(path), host, port, env) == Err(TypeError(NotAClassMessage(className)))
    ensures moduleName in env && className in env[moduleName] && env[moduleName][className].Class? ==>
      SetupConnection(Str(path), host, port, env) == SetupConnection(env[moduleName][className], host, port, env)
  {
    RSplitDotUnique(path, moduleName, className);
  }

  /** A string and the class it names connect the same way. */
  lemma PathAndClassAgree(moduleName: string, className: string, host: string, port: int, env: Env)
    requires '.' !in className && moduleName in env && className in env[moduleName]
    requires env[moduleName][className].Class?
    ensures SetupConnection(Str(moduleName + "." + className), host, port, env).Ok?
      <==> IsSubclass(env[moduleName][className], CONNECTION_BASE)
  {
    SetupConnectionPath(moduleName + "." + className, moduleName, className, host, port, env);
  }

  class Aorta {
    const host: string
    const port: int
    /** The listeners by the channel they were requested for, oldest first. */
    var listeners: Dict<string, Listener>
    const connection: Value

    /** One listener per channel; each of them was started when it was made. */
    ghost predicate Valid()
      reads this, set i | 0 <= i < |listeners| :: listeners[i].1
    {
      && DistinctKeys(listeners)
      && (forall i :: 0 <= i < |listeners| ==> listeners[i].1.started)
    }

    constructor Make(host: string, port: int, connection: Value)
      requires IsInstance(connection, CONNECTION_BASE)
      ensures this.host == host && this.port == port && this.connection == connection
      ensures listeners == [] && Valid()
    {
      this.host := host;
      this.port := port;
      this.connection := connection;
      listeners := [];
    }

    /**
      * `Aorta(host, port, connection_class)`: raises a TypeError without a
      * connection class, otherwise whatever setting up the connection raises.
      */
    static method Create(host: string, port: int, connectionClass: Value, env: Env) returns (r: Result<Aorta, ClientError>)
      ensures connectionClass == PyNone ==> r == Err(TypeError(MISSING_CONNECTION_CLASS))
      ensures connectionClass != PyNone && SetupConnection(connectionClass, host, port, env).Err? ==>
        r == Err(SetupConnection(connectionClass, host, port, env).error)
      ensures r.Ok? <==> connectionClass != PyNone && SetupConnection(connectionClass, host, port, env).Ok?
      ensures r.Ok? ==>
        && fresh(r.value) && r.value.Valid() && r.value.listeners == []
        && r.value.host == host && r.value.port == port
        && r.value.connection == SetupConnection(connectionClass, host, port, env).value
    {
      if connectionClass == PyNone {
        return Err(TypeError(MISSING_CONNECTION_CLASS));
      }
      var connection := SetupConnection(connectionClass, host, port, env);
      if connection.Err? {
        return Err(connection.error);
      }
      var client := new Aorta.Make(host, port, connection.value);
      r := Ok(client);
    }

    /**
      * `create_listener(channel, block)` as written: a channel not yet in the
      * cache makes it call `Listener(self, channel)`, which lacks the required
      * `port` argument and raises a TypeError before anything is cached; a
      * cached one is returned as None, or with `block` fails on the missing
      * `wait` attribute.
      */
    method CreateListenerAsWritten(channel: string, block: bool) returns (r: Result<(), ClientError>)
      ensures Lookup(listeners, channel).None? ==> r.Err? && r.error.TypeError?
      ensures Lookup(listeners, channel).Some? ==> r == if block then Err(AttributeError("wait")) else Ok(())
    {
      var cached := Lookup(listeners, channel);
      if cached.None? {
        return Err(TypeError("__init__() missing 1 required positional argument: 'port'"));
      }
      if block {
        return Err(AttributeError("wait"));
      }
      r := Ok(());
    }

    /**
      * `create_listener(channel)` with the listener built from the client's
      * own host and port: the first request for a channel makes, caches and
      * starts a listener for it, and every later one returns that listener.
      */
    method CreateListener(channel: string, senderId: string, isUuid: string -> bool,
                          factory: (string, Value) -> Option<Value>) returns (l: Listener)
      requires Valid()
      modifies this`listeners
      ensures Valid()
      ensures Lookup(listeners, channel) == Some(l)
      ensures old(Lookup(listeners, channel)).Some? ==> l == old(Lookup(listeners, channel)).value && listeners == old(listeners)
      ensures old(Lookup(listeners, channel)).None? ==>
        && fresh(l) && listeners == old(listeners) + [(channel, l)]
        && l.senderId == senderId && l.host == host && l.port == port
        && l.channel == ChannelOrDefault(Some(channel))
        && l.events == [] && l.handlers == [] && l.started
    {
      var cached := Lookup(listeners, channel);
      if cached.Some? {
        l := cached.value;
        return;
      }
      l := new Listener(senderId, host, port, Some(channel), None, None, isUuid, factory);
      var _ := l.Start();
      listeners := Insert(listeners, channel, l);
    }
  }
}

=== FILE: dsn_syntax.dfy ===
/**
  * Data Source Names `host:port/channel` as the backend reads them with the
  * pattern `^(.*)\:([0-9]{1,5})/(.*)$` under `re.match`: `.` matches anything
  * but a newline, `$` matches at the end or just before one trailing newline,
  * and the greedy host group makes the LAST qualifying ':' the separator.
  */
module DsnSyntax {
  import opened Wrappers
  import opened Text

  datatype Parts = Parts(host: string, port: string, channel: string)

  /** The `{1,5}` bound on the port group; no range check beyond it. */
  const MAX_PORT_DIGITS := 5

  function Format(p: Parts): string {
    p.host + ":" + p.port + "/" + p.channel
  }

  /** The text before a `$` that may stand in front of one trailing newline. */
  function Line(s: string): (r: string)
    ensures r == s || s == r + "\n"
  {
    if |s| > 0 && s[|s| - 1] == '\n' then s[..|s| - 1] else s
  }

  /** Length of the run of ASCII digits starting at `i`. */
  function DigitRun(s: string, i: nat): (n: nat)
    requires i <= |s|
    ensures i + n <= |s| && forall k :: i <= k < i + n ==> IsDigit(s[k])
    ensures i + n < |s| ==> !IsDigit(s[i + n])
    decreases |s| - i
  {
    if i < |s| && IsDigit(s[i]) then 1 + DigitRun(s, i + 1) else 0
  }

  /** The regex can take the ':' at `i` as the separator: 1 to 5 digits follow, then '/'. */
  predicate SplitsAt(s: string, i: nat) {
    && i < |s|
    && s[i] == ':'
    && var k := DigitRun(s, i + 1);
    && 1 <= k <= MAX_PORT_DIGITS
    && i + 1 + k < |s|
    && s[i + 1 + k] == '/'
  }

  /** The largest `i < n` at which `s` splits. */
  function LastSplit(s: string, n: nat): (r: Option<nat>)
    requires n <= |s|
    ensures r.Some? ==> r.value < n && SplitsAt(s, r.value)
    ensures r.Some? ==> forall j :: r.value < j < n ==> !SplitsAt(s, j)
    ensures r.None? ==> forall j :: 0 <= j < n ==> !SplitsAt(s, j)
  {
    if n == 0 then None
    else if SplitsAt(s, n - 1) then Some(n - 1)
    else
      var r := LastSplit(s, n - 1);
      assert forall j :: r.Some? && r.value < j < n - 1 ==> !SplitsAt(s, j);
      r
  }

  /**
    * `re.match(pattern, dsn).groups()`, or None where `re.match` finds no
    * match (the source then fails on `None.groups()`).
    */
  function Parse(dsn: string): (r: Option<Parts>)
    ensures r.None? <==> '\n' in Line(dsn) || forall j :: 0 <= j < |Line(dsn)| ==> !SplitsAt(Line(dsn), j)
    ensures r.Some? ==> Format(r.value) == Line(dsn)
    ensures r.Some? ==> 1 <= |r.value.port| <= MAX_PORT_DIGITS && AllDigits(r.value.port)
    ensures r.Some? ==> '\n' !in r.value.host && '\n' !in r.value.channel
    ensures r.Some? ==> SplitsAt(Line(dsn), |r.value.host|)
    ensures r.Some? ==> forall j :: |r.value.host| < j < |Line(dsn)| ==> !SplitsAt(Line(dsn), j)
    ensures r.Some? && (dsn == [] || dsn[|dsn| - 1] != '\n') ==> Format(r.value) == dsn
  {
    var line := Line(dsn);
    if '\n' in line then None
    else
      match LastSplit(line, |line|)
      case None => None
      case Some(i) => Some(PartsAt(line, i))
  }

  /** The three groups when the separator is the ':' at `i`. */
  function PartsAt(line: string, i: nat): (p: Parts)
    requires SplitsAt(line, i)
    ensures Format(p) == line && |p.host| == i
    ensures 1 <= |p.port| <= MAX_PORT_DIGITS && AllDigits(p.port)
    ensures forall c :: c in p.host || c in p.channel ==> c in line
  {
    var k := DigitRun(line, i + 1);
    var p := Parts(line[..i], line[i + 1..i + 1 + k], line[i + 2 + k..]);
    assert forall j :: 0 <= j < k ==> p.port[j] == line[i + 1 + j];
    assert line == p.host + [':'] + p.port + ['/'] + p.channel;
    p
  }

  /** Parts that a DSN built from them hands back unchanged. */
  predicate WellFormed(p: Parts) {
    && '\n' !in p.host
    && 1 <= |p.port| <= MAX_PORT_DIGITS && AllDigits(p.port)
    && ':' !in p.channel && '\n' !in p.channel
  }

  /** Formatting then parsing is the identity on well-formed parts. */
  lemma {:induction false} ParseFormat(p: Parts)
    requires WellFormed(p)
    ensures Parse(Format(p)) == Some(p)
  {
    var s := Format(p);
    FormatNoNewline(p);
    FormatSplitsAtHost(p);
    forall j | |p.host| < j < |s| ensures !SplitsAt(s, j) {
      FormatNoColonAfterHost(p, j);
    }
    ParseAtLastSplit(s, |p.host|);
    PartsAtHost(p);
  }

  /** The ':' after the host is a separator the pattern can take. */
  lemma FormatSplitsAtHost(p: Parts)
    requires WellFormed(p)
    ensures SplitsAt(Format(p), |p.host|)
    ensures DigitRun(Format(p), |p.host| + 1) == |p.port|
  {
    var s := Format(p);
    var h, n := |p.host|, |p.port|;
    forall k | h + 1 <= k < h + 1 + n
      ensures IsDigit(s[k])
    {
      FormatAt(p, k);
    }
    FormatAt(p, h);
    FormatAt(p, h + 1 + n);
    DigitRunOf(s, h + 1, n);
  }

  /** Splitting a formatted DSN after its host gives its parts back. */
  lemma PartsAtHost(p: Parts)
    requires WellFormed(p) && SplitsAt(Format(p), |p.host|)
    requires DigitRun(Format(p), |p.host| + 1) == |p.port|
    ensures PartsAt(Format(p), |p.host|) == p
  {
    var s := Format(p);
    var h, n := |p.host|, |p.port|;
    assert s[..h] == p.host;
    assert s[h + 1..h + 1 + n] == p.port;
    assert s[h + 2 + n..] == p.channel;
  }

  /**
    * The groups of any DSN that matches rebuild a DSN that matches to the
    * same groups, ':' in the channel included.
    */
  lemma ParsedRoundTrip(d: string)
    requires Parse(d).Some?
    ensures Parse(Format(Parse(d).value)) == Parse(d)
  {
    var s := Format(Parse(d).value);
    assert s == Line(d) && '\n' !in s;
    assert Line(s) == s;
  }

  /** Parts that some DSN yields are handed back by their own formatted DSN. */
  lemma ParsedPartsRoundTrip(p: Parts)
    ensures forall d :: Parse(d) == Some(p) ==> Parse(Format(p)) == Some(p)
  {
    forall d | Parse(d) == Some(p)
      ensures Parse(Format(p)) == Some(p)
    {
      ParsedRoundTrip(d);
    }
  }

  /** A newline-free string whose last split is at `i` parses around `i`. */
  lemma ParseAtLastSplit(s: string, i: nat)
    requires '\n' !in s && SplitsAt(s, i)
    requires forall j :: i < j < |s| ==> !SplitsAt(s, j)
    ensures Parse(s) == Some(PartsAt(s, i))
  {
    assert Line(s) == s;
    assert LastSplit(s, |s|) == Some(i);
  }

  lemma FormatNoNewline(p: Parts)
    requires WellFormed(p)
    ensures '\n' !in Format(p)
  {
    if '\n' in Format(p) {
      var i :| 0 <= i < |Format(p)| && Format(p)[i] == '\n';
      FormatAt(p, i);
    }
  }

  lemma FormatNoColonAfterHost(p: Parts, j: nat)
    requires WellFormed(p) && |p.host| < j < |Format(p)|
    ensures Format(p)[j] != ':'
  {
    FormatAt(p, j);
  }

  /** Where each character of a formatted DSN comes from. */
  lemma FormatAt(p: Parts, j: nat)
    requires j < |Format(p)|
    ensures var s, h, n := Format(p), |p.host|, |p.port|;
      && (j < h ==> s[j] == p.host[j])
      && (j == h ==> s[j] == ':')
      && (h < j <= h + n ==> s[j] == p.port[j - h - 1])
      && (j == h + n + 1 ==> s[j] == '/')
      && (h + n + 1 < j ==> s[j] == p.channel[j - h - n - 2])
  {
  }

  /** A digit run of known extent ends where the digits stop. */
  lemma DigitRunOf(s: string, i: nat, n: nat)
    requires i + n < |s| && !IsDigit(s[i + n])
    requires forall k :: i <= k < i + n ==> IsDigit(s[k])
    ensures DigitRun(s, i) == n
    decreases n
  {
    if n > 0 {
      DigitRunOf(s, i + 1, n - 1);
    }
  }

  /**
    * A DSN with one trailing newline still matches, as `$` may stand before
    * it, but its groups rebuild the DSN without the newline.
    */
  lemma {:induction false} TrailingNewlineDropped(p: Parts)
    requires WellFormed(p)
    ensures Parse(Format(p) + "\n") == Some(p)
    ensures Format(p) != Format(p) + "\n"
  {
    var s := Format(p);
    assert Line(s + "\n") == s;
    FormatNoNewline(p);
    assert Line(s) == s;
    ParseFormat(p);
  }
}

=== FILE: ireceiver.dfy ===
/**
  * `IReceiver`: the receiver-side guard in front of a listener. It drops a
  * message whose id is among the last 1000 ids it accepted, remembers the
  * id of every other message, insists that the message is an event and
  * hands it to the listener.
  */
module ListenerIReceiver {
  import opened Wrappers
  import opened PyValues
  import opened Messages
  import opened ListenerBase
  import opened DedupWindow

  /** `collections.deque([], 1000)`: the number of ids remembered. */
  const SEEN_CAPACITY: nat := 1000

  /** Why `on_message` returned or raised. */
  datatype Reception =
    /** The id is in the window: the message is dropped. */
    | Duplicate
    /** The `type` property is not `event`: the assertion fails after the id was remembered. */
    | NotAnEvent
    /** The message went to the listener's `on_event`. */
    | Forwarded

  /** `msg.properties.get('type') == 'event'`. */
  predicate IsEvent(props: map<string, Value>) {
    "type" in props && props["type"] == Str("event")
  }

  class IReceiver {
    const listener: Listener
    /** The ids of the last accepted messages, oldest first. */
    var seen: seq<Option<string>>

    ghost predicate Valid()
      reads this
    {
      |seen| <= SEEN_CAPACITY && Distinct(seen)
    }

    constructor (listener: Listener)
      ensures this.listener == listener && seen == [] && Valid()
    {
      this.listener := listener;
      seen := [];
    }

    /** The connection options: none. */
    function GetOptions(): (r: Option<Value>)
      ensures r.None?
    {
      None
    }

    /**
      * `on_message`: drops a message whose id is in the window; otherwise
      * remembers the id, then refuses a message that is not an event and
      * passes any other one to the listener.
      */
    method OnMessage(msg: Message) returns (r: Reception)
      requires Valid()
      modifies this`seen, listener`eventsReceived, listener`malformed, listener`invocations
      ensures Valid()
      ensures seen == old(Deliver(seen, msg.id, SEEN_CAPACITY).0)
      ensures r == Duplicate <==> msg.id in old(seen)
      ensures msg.id !in old(seen) ==> msg.id in seen
      ensures r == NotAnEvent <==> msg.id !in old(seen) && !IsEvent(msg.properties)
      ensures r != Forwarded ==>
        && listener.eventsReceived == old(listener.eventsReceived)
        && listener.malformed == old(listener.malformed)
        && listener.invocations == old(listener.invocations)
      ensures r == Forwarded ==>
        && listener.eventsReceived == old(listener.eventsReceived) + 1
        && listener.malformed == old(listener.malformed)
           + (if LoadHeader(msg.properties, listener.isUuid).Err? then [msg] else [])
        && listener.invocations == old(listener.invocations) + old(listener.InvocationsFor(msg))
    {
      if msg.id in seen {
        return Duplicate;
      }
      seen := Deliver(seen, msg.id, SEEN_CAPACITY).0;
      if !IsEvent(msg.properties) {
        return NotAnEvent;
      }
      listener.OnEvent(msg);
      r := Forwarded;
    }
  }
}

=== FILE: listener_base.dfy ===
/**
  * `Listener`: binds to one channel and runs each inbound event message
  * through the pipeline parse header, build event, select handlers, invoke
  * them, with every failure of a handler contained.
  */
module ListenerBase {
  import opened Wrappers
  import opened Text
  import opened PyValues
  import opened Messages
  import DsnSyntax

  /** The channel every client listens on when none is given. */
  const EVENTS_CHANNEL := "events.global"

  /** What a handler predicate did: returned something truthy or falsy, or raised. */
  datatype Verdict = Truthy | Falsy | Raises

  /** Whether `handle(event)` returned or raised an `Exception`. */
  datatype Completion = Returned | Raised

  /**
    * An application handler, known only by what its three methods do with
    * an event.
    */
  datatype Handler = Handler(
    isValidEvent: Value -> Verdict,
    canHandle: Value -> Verdict,
    handle: Value -> Completion)

  /** The validated message header. */
  datatype Header = Header(senderId: string, eventId: string, eventType: string)

  /** Why `_parse_event` raised. */
  datatype ParseFailure =
    /** The header adapter reported errors (`MalformedEvent`). */
    | MalformedEvent(errors: seq<string>)
    /** Building the event from its type name and body raised. */
    | FactoryRaised

  /** A call the selection made on a handler, by the handler's position. */
  datatype Probe = ValidityCheck(handler: nat) | InterestCheck(handler: nat)

  /** One `handler.handle(event)` call, by the handler's position. */
  datatype Invocation = Invocation(handler: nat, event: Value, completion: Completion)

  /** The header field names the adapter requires. */
  const SENDER_ID := "sender_id"
  const EVENT_ID := "event_id"
  const EVENT_TYPE := "event_type"

  /** A required UUID field: present, a string, and accepted by the UUID check. */
  predicate UuidField(props: map<string, Value>, key: string, isUuid: string -> bool) {
    key in props && props[key].Str? && isUuid(props[key].s)
  }

  /** A required string field. */
  predicate StringField(props: map<string, Value>, key: string) {
    key in props && props[key].Str?
  }

  /**
    * `EventAdapter().load(properties)`: the header, or the names of the
    * fields that failed. `isUuid` stands for the adapter's UUID syntax check.
    */
  function LoadHeader(props: map<string, Value>, isUuid: string -> bool): (r: Result<Header, seq<string>>)
    ensures r.Ok? <==> UuidField(props, SENDER_ID, isUuid) && UuidField(props, EVENT_ID, isUuid) && StringField(props, EVENT_TYPE)
    ensures r.Ok? ==>
      && props[SENDER_ID] == Str(r.value.senderId)
      && props[EVENT_ID] == Str(r.value.eventId)
      && props[EVENT_TYPE] == Str(r.value.eventType)
    ensures r.Err? ==> r.error != [] && forall f :: f in r.error ==> f in [SENDER_ID, EVENT_ID, EVENT_TYPE]
    ensures r.Err? ==> (SENDER_ID in r.error <==> !UuidField(props, SENDER_ID, isUuid))
    ensures r.Err? ==> (EVENT_ID in r.error <==> !UuidField(props, EVENT_ID, isUuid))
    ensures r.Err? ==> (EVENT_TYPE in r.error <==> !StringField(props, EVENT_TYPE))
  {
    var errors :=
      (if UuidField(props, SENDER_ID, isUuid) then [] else [SENDER_ID])
      + (if UuidField(props, EVENT_ID, isUuid) then [] else [EVENT_ID])
      + (if StringField(props, EVENT_TYPE) then [] else [EVENT_TYPE]);
    if errors == [] then Ok(Header(props[SENDER_ID].s, props[EVENT_ID].s, props[EVENT_TYPE].s))
    else Err(errors)
  }

  /**
    * What `_parse_event` returns or raises: the header and the event that
    * `factory` (standing for `EventFactory(event_type)(**body)`, None when
    * it raises) builds.
    */
  function DecodeEvent(props: map<string, Value>, body: Value, isUuid: string -> bool,
                       factory: (string, Value) -> Option<Value>): (r: Result<(Header, Value), ParseFailure>)
    ensures r.Err? && r.error.MalformedEvent? <==> LoadHeader(props, isUuid).Err?
    ensures r.Ok? ==> LoadHeader(props, isUuid) == Ok(r.value.0) && factory(r.value.0.eventType, body) == Some(r.value.1)
    ensures r.Err? && r.error.FactoryRaised? <==>
      LoadHeader(props, isUuid).Ok? && factory(LoadHeader(props, isUuid).value.eventType, body).None?
  {
    match LoadHeader(props, isUuid)
    case Err(errors) => Err(MalformedEvent(errors))
    case Ok(header) =>
      match factory(header.eventType, body)
      case None => Err(FactoryRaised)
      case Some(event) => Ok((header, event))
  }

  /** The handler both accepts the event and wants it, and neither predicate raised. */
  predicate Applies(h: Handler, event: Value) {
    h.isValidEvent(event) == Truthy && h.canHandle(event) == Truthy
  }

  /**
    * `get_event_handlers(event)` from position `from` on: the positions of the
    * handlers that apply, in registration order. A predicate that raises
    * only drops its own handler.
    */
  function SelectFrom(hs: seq<Handler>, event: Value, from: nat): (r: seq<nat>)
    requires from <= |hs|
    ensures forall k :: k in r <==> from <= k < |hs| && Applies(hs[k], event)
    ensures forall i :: 0 <= i < |r| ==> from <= r[i] < |hs|
    ensures forall i, j :: 0 <= i < j < |r| ==> r[i] < r[j]
    decreases |hs| - from
  {
    if from == |hs| then []
    else if Applies(hs[from], event) then [from] + SelectFrom(hs, event, from + 1)
    else SelectFrom(hs, event, from + 1)
  }

  function SelectHandlers(hs: seq<Handler>, event: Value): seq<nat> {
    SelectFrom(hs, event, 0)
  }

  /**
    * The predicate calls the selection makes from position `from` on:
    * `is_valid_event` on every handler, `can_handle` only after
    * `is_valid_event` returned something truthy.
    */
  function ProbesFrom(hs: seq<Handler>, event: Value, from: nat): (r: seq<Probe>)
    requires from <= |hs|
    ensures forall k: nat :: ValidityCheck(k) in r <==> from <= k < |hs|
    ensures forall k: nat :: InterestCheck(k) in r <==> from <= k < |hs| && hs[k].isValidEvent(event) == Truthy
    decreases |hs| - from
  {
    if from == |hs| then []
    else
      ProbeHead(hs, event, from) + ProbesFrom(hs, event, from + 1)
  }

  /** The calls made on the handler at `from`. */
  function ProbeHead(hs: seq<Handler>, event: Value, from: nat): (r: seq<Probe>)
    requires from < |hs|
    ensures 1 <= |r| <= 2 && r[0] == ValidityCheck(from)
    ensures |r| == 2 <==> hs[from].isValidEvent(event) == Truthy
    ensures |r| == 2 ==> r[1] == InterestCheck(from)
  {
    [ValidityCheck(from)] + (if hs[from].isValidEvent(event) == Truthy then [InterestCheck(from)] else [])
  }

  /**
    * Calls on handlers `lo` up to `hi`, handler by handler, each
    * `can_handle` call straight after the `is_valid_event` call on the same
    * handler.
    */
  ghost predicate InHandlerOrder(r: seq<Probe>, lo: nat, hi: nat) {
    && (forall i :: 0 <= i < |r| ==> lo <= r[i].handler < hi)
    && (forall i, j :: 0 <= i < j < |r| ==> r[i].handler <= r[j].handler)
    && (forall i :: 0 <= i < |r| && r[i].InterestCheck? ==> 0 < i && r[i - 1] == ValidityCheck(r[i].handler))
  }

  /** The calls `get_event_handlers` makes come in handler order. */
  lemma {:induction false} ProbesInOrder(hs: seq<Handler>, event: Value, from: nat)
    requires from <= |hs|
    ensures InHandlerOrder(ProbesFrom(hs, event, from), from, |hs|)
    decreases |hs| - from
  {
    if from < |hs| {
      ProbesInOrder(hs, event, from + 1);
      InHandlerOrderPrepend(ProbeHead(hs, event, from), ProbesFrom(hs, event, from + 1), from, |hs|);
    }
  }

  /** The calls on one handler, put before the calls on later handlers. */
  lemma InHandlerOrderPrepend(head: seq<Probe>, tail: seq<Probe>, lo: nat, hi: nat)
    requires lo < hi && 1 <= |head| <= 2 && head[0] == ValidityCheck(lo)
    requires |head| == 2 ==> head[1] == InterestCheck(lo)
    requires InHandlerOrder(tail, lo + 1, hi)
    ensures InHandlerOrder(head + tail, lo, hi)
  {
    var r, h := head + tail, |head|;
    forall i | 0 <= i < |r|
      ensures lo <= r[i].handler < hi
    {
      if i >= h { assert r[i] == tail[i - h]; }
    }
    forall i, j | 0 <= i < j < |r|
      ensures r[i].handler <= r[j].handler
    {
      if j >= h {
        assert r[j] == tail[j - h];
        if i >= h { assert r[i] == tail[i - h]; }
      }
    }
    forall i | 0 <= i < |r|
      ensures r[i].InterestCheck? ==> 0 < i && r[i - 1] == ValidityCheck(r[i].handler)
    {
      if i > h {
        assert r[i] == tail[i - h] && r[i - 1] == tail[i - 1 - h];
      } else if i == h {
        assert r[i] == tail[0];
      }
    }
  }

  /** The `handle` calls for the selected positions, in order. */
  function Invoke(hs: seq<Handler>, selected: seq<nat>, event: Value): (r: seq<Invocation>)
    requires forall i :: 0 <= i < |selected| ==> selected[i] < |hs|
    ensures |r| == |selected|
    ensures forall i :: 0 <= i < |r| ==> r[i].handler == selected[i] && r[i].event == event
  {
    seq(|selected|, i requires 0 <= i < |selected| => Invocation(selected[i], event, hs[selected[i]].handle(event)))
  }

  /**
    * The predicate calls decide the selection: a handler is selected exactly
    * when it was asked `can_handle`, which needs a truthy `is_valid_event`,
    * and answered truthy.
    */
  lemma {:induction false} ProbesDecideSelection(hs: seq<Handler>, event: Value, from: nat)
    requires from <= |hs|
    ensures forall k: nat :: k < |hs| ==>
      (k in SelectFrom(hs, event, from) <==> InterestCheck(k) in ProbesFrom(hs, event, from) && hs[k].canHandle(event) == Truthy)
    decreases |hs| - from
  {
    if from < |hs| {
      ProbesDecideSelection(hs, event, from + 1);
    }
  }

  /** `channel or EVENTS_CHANNEL`: None and the empty string both fall back. */
  function ChannelOrDefault(channel: Option<string>): (r: string)
    ensures r != ""
    ensures channel.Some? && channel.value != "" ==> r == channel.value
    ensures channel.None? || channel.value == "" ==> r == EVENTS_CHANNEL
  {
    if channel.Some? && channel.value != "" then channel.value else EVENTS_CHANNEL
  }

  class Listener {
    const senderId: string
    const host: string
    const port: int
    const channel: string
    /** The header adapter's UUID check. */
    const isUuid: string -> bool
    /** `EventFactory(event_type)(**body)`; None when it raises. */
    const factory: (string, Value) -> Option<Value>
    var events: seq<string>
    var handlers: seq<Handler>
    var eventsReceived: nat
    var started: bool
    /** Messages passed to `on_malformed_event`, in order. */
    var malformed: seq<Message>
    /** `handle` calls made, in order. */
    var invocations: seq<Invocation>

    constructor (senderId: string, host: string, port: int, channel: Option<string>,
                 events: Option<seq<string>>, handlers: Option<seq<Handler>>,
                 isUuid: string -> bool, factory: (string, Value) -> Option<Value>)
      ensures this.senderId == senderId && this.host == host && this.port == port
      ensures this.channel == ChannelOrDefault(channel)
      ensures this.events == events.GetOr([]) && this.handlers == handlers.GetOr([])
      ensures this.isUuid == isUuid && this.factory == factory
      ensures eventsReceived == 0 && !started && malformed == [] && invocations == []
    {
      this.senderId := senderId;
      this.host := host;
      this.port := port;
      this.channel := ChannelOrDefault(channel);
      this.events := events.GetOr([]);
      this.handlers := handlers.GetOr([]);
      this.isUuid := isUuid;
      this.factory := factory;
      eventsReceived := 0;
      started := false;
      malformed := [];
      invocations := [];
    }

    /** The `address` property, `host:port`. */
    function Address(): (r: string)
      ensures Url() == r + "/" + channel
    {
      host + ":" + IntToString(port)
    }

    /**
      * The `url` property, `host:port/channel`: a DSN the backend parses back
      * into this listener's host, port and channel when the port has at most
      * five digits and neither part holds a newline or, in the channel, a ':'.
      */
    function Url(): (r: string)
      ensures 0 <= port < 100000 && '\n' !in host && ':' !in channel && '\n' !in channel ==>
        DsnSyntax.Parse(r) == Some(DsnSyntax.Parts(host, IntToString(port), channel))
    {
      var p := DsnSyntax.Parts(host, IntToString(port), channel);
      if 0 <= port < 100000 && '\n' !in host && ':' !in channel && '\n' !in channel then
        NatToStringLength(port, 5);
        DsnSyntax.ParseFormat(p);
        DsnSyntax.Format(p)
      else DsnSyntax.Format(p)
    }

    /** Starts the listener's thread; a thread starts at most once. */
    method Start() returns (ok: bool)
      modifies this`started
      ensures ok == !old(started) && started
    {
      ok := !started;
      started := true;
    }

    /** The default malformed-event hook does nothing; the model records the call. */
    method OnMalformedEvent(msg: Message)
      modifies this`malformed
      ensures malformed == old(malformed) + [msg]
    {
      malformed := malformed + [msg];
    }

    /** `_parse_event`: on header errors runs the malformed hook, then raises. */
    method ParseEvent(msg: Message) returns (r: Result<(Header, Value), ParseFailure>)
      modifies this`malformed
      ensures r == DecodeEvent(msg.properties, msg.body, isUuid, factory)
      ensures malformed == old(malformed) + (if LoadHeader(msg.properties, isUuid).Err? then [msg] else [])
    {
      var header := LoadHeader(msg.properties, isUuid);
      if header.Err? {
        OnMalformedEvent(msg);
        return Err(MalformedEvent(header.error));
      }
      r := DecodeEvent(msg.properties, msg.body, isUuid, factory);
    }

    /** The `handle` calls `on_event(msg)` makes, given the current handlers. */
    function InvocationsFor(msg: Message): (r: seq<Invocation>)
      reads this
      ensures LoadHeader(msg.properties, isUuid).Err? ==> r == []
      ensures DecodeEvent(msg.properties, msg.body, isUuid, factory).Err? ==> r == []
      ensures forall i :: 0 <= i < |r| ==> r[i].handler < |handlers| && Applies(handlers[r[i].handler], r[i].event)
      ensures forall i, j :: 0 <= i < j < |r| ==> r[i].handler < r[j].handler
      ensures DecodeEvent(msg.properties, msg.body, isUuid, factory).Ok? ==>
        var event := DecodeEvent(msg.properties, msg.body, isUuid, factory).value.1;
        && (forall i :: 0 <= i < |r| ==> r[i].event == event && r[i].completion == handlers[r[i].handler].handle(event))
        && (forall k :: 0 <= k < |handlers| && Applies(handlers[k], event) ==> exists i :: 0 <= i < |r| && r[i].handler == k)
    {
      match DecodeEvent(msg.properties, msg.body, isUuid, factory)
      case Err(_) => []
      case Ok((_, event)) => Invoke(handlers, SelectHandlers(handlers, event), event)
    }

    /**
      * `on_event(msg)`: counts the message, parses it, and calls `handle` on
      * every selected handler in order; nothing raised escapes.
      */
    method OnEvent(msg: Message)
      modifies this`eventsReceived, this`malformed, this`invocations
      ensures eventsReceived == old(eventsReceived) + 1
      ensures malformed == old(malformed) + (if LoadHeader(msg.properties, isUuid).Err? then [msg] else [])
      ensures invocations == old(invocations) + old(InvocationsFor(msg))
    {
      eventsReceived := eventsReceived + 1;
      var parsed := ParseEvent(msg);
      if parsed.Err? {
        return;
      }
      var event := parsed.value.1;
      var selected := SelectHandlers(handlers, event);
      var i := 0;
      while i < |selected|
        invariant 0 <= i <= |selected|
        invariant invocations == old(invocations) + Invoke(handlers, selected[..i], event)
        invariant eventsReceived == old(eventsReceived) + 1
        invariant malformed == old(malformed)
      {
        var k := selected[i];
        var completion := handlers[k].handle(event);
        invocations := invocations + [Invocation(k, event, completion)];
        assert selected[..i + 1] == selected[..i] + [k];
        i := i + 1;
      }
      assert selected[..i] == selected;
    }
  }
}

=== FILE: messages.dfy ===
/** The message objects that travel between senders, receivers and listeners. */
module Messages {
  import opened Wrappers
  import opened PyValues

  /**
    * A transport message. Only its id is ever rebound (by the backend before
    * sending); its property bag and body stay as they were built. Duplicate
    * tests by object compare references, tests by id compare `id`.
    */
  class Message {
    var id: Option<string>
    const properties: map<string, Value>
    const body: Value

    constructor (id: Option<string>, properties: map<string, Value>, body: Value)
      ensures this.id == id && this.properties == properties && this.body == body
    {
      this.id := id;
      this.properties := properties;
      this.body := body;
    }
  }
}

=== FILE: ordered_dict.dfy ===
/**
  * A Python dict: entries in insertion order, each key at most once.
  * Rebinding an existing key keeps its position; a new key goes to the end.
  */
module OrderedDict {
  import opened Wrappers

  type Dict<K, V> = seq<(K, V)>

  function Keys<K, V>(d: Dict<K, V>): (ks: seq<K>)
    ensures |ks| == |d| && forall i :: 0 <= i < |d| ==> ks[i] == d[i].0
  {
    seq(|d|, i requires 0 <= i < |d| => d[i].0)
  }

  /** `d.values()`, in insertion order. */
  function Values<K, V>(d: Dict<K, V>): (vs: seq<V>)
    ensures |vs| == |d| && forall i :: 0 <= i < |d| ==> vs[i] == d[i].1
  {
    seq(|d|, i requires 0 <= i < |d| => d[i].1)
  }

  ghost predicate DistinctKeys<K, V>(d: Dict<K, V>) {
    forall i, j :: 0 <= i < j < |d| ==> d[i].0 != d[j].0
  }

  /** `d.get(k)`. */
  function Lookup<K(==), V>(d: Dict<K, V>, k: K): (r: Option<V>)
    ensures r.None? <==> forall i :: 0 <= i < |d| ==> d[i].0 != k
    ensures r.Some? ==> exists i :: 0 <= i < |d| && d[i] == (k, r.value)
  {
    if |d| == 0 then None
    else if d[0].0 == k then Some(d[0].1)
    else
      var r := Lookup(d[1..], k);
      assert forall i :: 1 <= i < |d| ==> d[i] == d[1..][i - 1];
      r
  }

  /**
    * `d[k] = v` for a key `d` does not hold yet: the entry goes to the end.
    * (Every assignment in the modelled code is guarded by `k not in d`.)
    */
  function Insert<K(==), V>(d: Dict<K, V>, k: K, v: V): (r: Dict<K, V>)
    requires Lookup(d, k).None?
    ensures Lookup(r, k) == Some(v)
    ensures DistinctKeys(d) ==> DistinctKeys(r)
    ensures Values(r) == Values(d) + [v]
  {
    LookupAppend(d, k, v, k);
    assert Values(d + [(k, v)]) == Values(d) + [v];
    d + [(k, v)]
  }

  /** Appending an entry changes the lookup of its own key only. */
  lemma {:induction false} LookupAppend<K, V>(d: Dict<K, V>, k: K, v: V, k': K)
    requires Lookup(d, k).None?
    ensures Lookup(d + [(k, v)], k') == if k' == k then Some(v) else Lookup(d, k')
  {
    if |d| > 0 {
      assert (d + [(k, v)])[1..] == d[1..] + [(k, v)];
      LookupAppend(d[1..], k, v, k');
    }
  }

  /** With distinct keys, a key's value is the one stored at its position. */
  lemma {:induction false} LookupAt<K, V>(d: Dict<K, V>, i: nat)
    requires DistinctKeys(d) && i < |d|
    ensures Lookup(d, d[i].0) == Some(d[i].1)
  {
    if i > 0 {
      assert d[0].0 != d[i].0;
      LookupAt(d[1..], i - 1);
    }
  }
}

=== FILE: proton_receiver.dfy ===
/**
  * The Qpid Proton `Receiver`: one AMQP link on a channel, handing every
  * message it is given to its backend's inbound queue, tagged with its own
  * id. Its duplicate window is consulted but never filled.
  */
module QpidProtonReceiver {
  import opened Wrappers
  import opened Messages
  import opened BackendBase
  import DsnSyntax
  import opened DedupWindow

  /** The bound of the `seen` window. */
  const SEEN_CAPACITY: nat := 2000

  class Receiver {
    const backend: BaseMessagingBackend
    const host: string
    const port: string
    const channel: string
    /** The hex of a random UUID in the source; given by the caller here. */
    const receiverId: string
    /** The duplicate window, oldest first. Only the corrected `on_message` appends to it. */
    var seen: seq<Message>

    /**
      * Binds the receiver to its backend and DSN; the container, link and
      * thread it also sets up are not modelled.
      */
    constructor (backend: BaseMessagingBackend, host: string, port: string, channel: string, receiverId: string)
      ensures this.backend == backend && this.host == host && this.port == port && this.channel == channel
      ensures this.receiverId == receiverId
      ensures seen == []
    {
      this.backend := backend;
      this.host := host;
      this.port := port;
      this.channel := channel;
      this.receiverId := receiverId;
      seen := [];
    }

    /** `host:port`, the address the container connects to. */
    function Address(): (r: string)
      ensures r + "/" + channel == DsnSyntax.Format(DsnSyntax.Parts(host, port, channel))
      ensures Dsn() == r + "/" + channel
    {
      host + ":" + port
    }

    /**
      * `address/channel`: for parts the backend parsed out of some DSN it
      * parses back to those parts, so the receiver reports a DSN equivalent
      * to the one it is registered under.
      */
    function Dsn(): (r: string)
      ensures DsnSyntax.WellFormed(DsnSyntax.Parts(host, port, channel)) ==>
        DsnSyntax.Parse(r) == Some(DsnSyntax.Parts(host, port, channel))
      ensures forall d :: DsnSyntax.Parse(d) == Some(DsnSyntax.Parts(host, port, channel)) ==>
        DsnSyntax.Parse(r) == Some(DsnSyntax.Parts(host, port, channel))
    {
      var p := DsnSyntax.Parts(host, port, channel);
      DsnSyntax.ParsedPartsRoundTrip(p);
      if DsnSyntax.WellFormed(p) then
        DsnSyntax.ParseFormat(p);
        DsnSyntax.Format(p)
      else DsnSyntax.Format(p)
    }

    /**
      * `on_message`: a message already in `seen` is dropped; any other one is
      * put on the backend's queue as `(receiver_id, msg)`. `seen` itself is
      * left as it is.
      */
    method OnMessage(msg: Message)
      modifies backend`incoming
      ensures msg in seen ==> backend.incoming == old(backend.incoming)
      ensures msg !in seen ==> backend.incoming == old(backend.incoming) + [[StrArg(receiverId), MsgArg(msg)]]
    {
      if msg in seen {
        return;
      }
      backend.Put([StrArg(receiverId), MsgArg(msg)]);
    }

    /**
      * `on_message` with the accepted message remembered in `seen`, as the
      * bounded window and the membership test call for: a message in the
      * window is dropped, any other one is remembered and put on the queue.
      */
    method OnMessageRemembering(msg: Message)
      requires |seen| <= SEEN_CAPACITY
      modifies this`seen, backend`incoming
      ensures |seen| <= SEEN_CAPACITY
      ensures seen == old(Deliver(seen, msg, SEEN_CAPACITY).0)
      ensures msg in old(seen) ==> backend.incoming == old(backend.incoming)
      ensures msg !in old(seen) ==> backend.incoming == old(backend.incoming) + [[StrArg(receiverId), MsgArg(msg)]]
    {
      if msg in seen {
        return;
      }
      seen := Deliver(seen, msg, SEEN_CAPACITY).0;
      backend.Put([StrArg(receiverId), MsgArg(msg)]);
    }
  }

  /**
    * As written, the same message delivered twice in a row reaches the
    * backend's queue twice: `seen` never fills, so the duplicate test never
    * fires.
    */
  method SecondDeliveryForwarded(r: Receiver, msg: Message)
    requires r.seen == []
    modifies r.backend`incoming
    ensures r.seen == []
    ensures r.backend.incoming == old(r.backend.incoming) + [[StrArg(r.receiverId), MsgArg(msg)], [StrArg(r.receiverId), MsgArg(msg)]]
  {
    r.OnMessage(msg);
    r.OnMessage(msg);
  }

  /** With the message remembered, the second delivery is dropped. */
  method SecondDeliveryDropped(r: Receiver, msg: Message)
    requires r.seen == []
    modifies r`seen, r.backend`incoming
    ensures r.seen == [msg]
    ensures r.backend.incoming == old(r.backend.incoming) + [[StrArg(r.receiverId), MsgArg(msg)]]
  {
    r.OnMessageRemembering(msg);
    r.OnMessageRemembering(msg);
  }
}

=== FILE: py_values.dfy ===
/**
  * The Python values the loader and the client inspect, and the import system
  * they call, modelled as an environment from module name to attributes.
  */
module PyValues {
  import opened Wrappers

  /**
    * A Python object as far as `isinstance`, `inspect.isclass`, `issubclass`,
    * `getattr` and instantiation can tell. A class carries the names of every
    * class in its method resolution order (itself included), so `issubclass`
    * is a membership test; an instance carries its class's.
    */
  datatype Value =
    | PyNone
    | Int(i: int)
    | Str(s: string)
    | Module(name: string, attrs: map<string, Value>)
    | Class(name: string, mro: set<string>)
    | Instance(cls: string, mro: set<string>, args: seq<Value>)
    | Other

  /** `sys.modules` as the importer sees it: module name to its attributes. */
  type Env = map<string, map<string, Value>>

  /** Why an import-style lookup failed; every case surfaces as an ImportError. */
  datatype ImportFailure =
    | NoModuleNamed(name: string)
    | NoMessagingBackend(moduleName: string)
    | NoAttribute(moduleName: string, attr: string)

  /** `inspect.isclass(v) and issubclass(v, base)`. */
  predicate IsSubclass(v: Value, base: string) {
    v.Class? && base in v.mro
  }

  /** `isinstance(v, base)` for a class-typed `base`. */
  predicate IsInstance(v: Value, base: string) {
    v.Instance? && base in v.mro
  }

  /** `importlib.import_module(name)`: the module object, or the name that was not found. */
  function ImportModule(env: Env, name: string): (r: Result<Value, ImportFailure>)
    ensures r.Ok? <==> name in env
    ensures r.Ok? ==> r.value.Module? && r.value.name == name && r.value.attrs == env[name]
    ensures r.Err? ==> r.error == NoModuleNamed(name)
  {
    if name in env then Ok(Module(name, env[name])) else Err(NoModuleNamed(name))
  }

  /** `cls(*args)`: the class's constructor is foreign code and is taken to succeed. */
  function Instantiate(cls: Value, args: seq<Value>): (r: Value)
    requires cls.Class?
  {
    Instance(cls.name, cls.mro, args)
  }
}

=== FILE: text.dfy ===
/** String helpers the source gets from Python's `str`: `rsplit('.', 1)`, digit classes and `str(int)`. */
module Text {
  import opened Wrappers

  /** The ASCII class `[0-9]`. */
  predicate IsDigit(c: char) { '0' <= c <= '9' }

  predicate AllDigits(s: string) {
    forall i :: 0 <= i < |s| ==> IsDigit(s[i])
  }

  /**
    * `s.rsplit('.', 1)` unpacked into two names: the text before and after the
    * last '.', or None when unpacking fails because `s` has no '.'.
    */
  function RSplitDot(s: string): (r: Option<(string, string)>)
    ensures r.None? <==> '.' !in s
    ensures r.Some? ==> r.value.0 + "." + r.value.1 == s && '.' !in r.value.1
  {
    if |s| == 0 then None
    else if s[|s| - 1] == '.' then Some((s[..|s| - 1], ""))
    else
      match RSplitDot(s[..|s| - 1])
      case None =>
        assert s == s[..|s| - 1] + [s[|s| - 1]];
        None
      case Some(parts) =>
        assert s == s[..|s| - 1] + [s[|s| - 1]];
        Some((parts.0, parts.1 + [s[|s| - 1]]))
  }

  /** `rsplit('.', 1)` finds exactly the split whose right part has no '.'. */
  lemma RSplitDotUnique(s: string, left: string, right: string)
    requires s == left + "." + right && '.' !in right
    ensures RSplitDot(s) == Some((left, right))
  {
    assert s[|left|] == '.';
    var (a, b) := RSplitDot(s).value;
    assert s[|a|] == '.';
    assert |a| == |left|;
    assert a == s[..|a|] == left;
    assert b == s[|a| + 1..] == right;
  }

  /** The value of a string of decimal digits. */
  function DecimalValue(s: string): nat
    requires AllDigits(s)
  {
    if s == [] then 0 else DecimalValue(s[..|s| - 1]) * 10 + (s[|s| - 1] as int - '0' as int)
  }

  function Digit(d: nat): (c: char)
    requires d < 10
  {
    ('0' as int + d) as char
  }

  /** `str(n)` for a non-negative int: its decimal digits without leading zeros. */
  function NatToString(n: nat): (r: string)
    ensures 1 <= |r| && AllDigits(r)
    ensures DecimalValue(r) == n
    ensures |r| > 1 ==> r[0] != '0'
  {
    if n < 10 then [Digit(n)]
    else
      var prefix := NatToString(n / 10);
      var r := prefix + [Digit(n % 10)];
      assert r[..|r| - 1] == prefix;
      r
  }

  /** `str(i)` for any int. */
  function IntToString(i: int): string {
    if i < 0 then "-" + NatToString(-i) else NatToString(i)
  }

  function Pow10(k: nat): (r: nat)
    ensures r >= 1
  {
    if k == 0 then 1 else 10 * Pow10(k - 1)
  }

  /** A number below 10^k prints with at most k digits. */
  lemma {:induction false} NatToStringLength(n: nat, k: nat)
    requires 1 <= k && n < Pow10(k)
    ensures |NatToString(n)| <= k
  {
    if n >= 10 {
      NatToStringLength(n / 10, k - 1);
    }
  }
}

=== FILE: window.dfy ===
/**
  * A duplicate window as the receivers keep it: a `collections.deque` with a
  * maximum length, holding the most recently accepted items, oldest first.
  */
module DedupWindow {
  predicate Distinct<T(==)>(s: seq<T>) {
    forall i, j :: 0 <= i < j < |s| ==> s[i] != s[j]
  }

  /** The last `n` elements of `s` (all of them when there are fewer). */
  function LastN<T>(s: seq<T>, n: nat): (r: seq<T>)
    ensures |r| == if |s| <= n then |s| else n
    ensures r == s[|s| - |r|..]
  {
    if |s| <= n then s else s[|s| - n..]
  }

  /**
    * `deque.append` on a deque bounded by `cap`: when it is full the oldest
    * entry falls out. The window is always the last `cap` entries ever
    * appended.
    */
  function Remember<T>(w: seq<T>, x: T, cap: nat): (r: seq<T>)
    requires |w| <= cap
    ensures r == LastN(w + [x], cap)
    ensures |r| <= cap
    ensures 0 < cap ==> r[|r| - 1] == x
  {
    if |w| < cap then w + [x]
    else if cap == 0 then []
    else w[1..] + [x]
  }

  /** The window after one message: an id already there is dropped, any other remembered. */
  function Deliver<T(==)>(w: seq<T>, x: T, cap: nat): (r: (seq<T>, bool))
    requires |w| <= cap
    ensures r.1 <==> x !in w
    ensures x in w ==> r.0 == w
    ensures x !in w ==> r.0 == LastN(w + [x], cap)
    ensures |r.0| <= cap
    ensures Distinct(w) && 0 < cap ==> Distinct(r.0) && x in r.0
  {
    if x in w then (w, false)
    else
      if Distinct(w) then RememberDistinct(w, x, cap); (Remember(w, x, cap), true)
      else (Remember(w, x, cap), true)
  }

  /** Remembering a new id keeps the window free of repeats. */
  lemma RememberDistinct<T>(w: seq<T>, x: T, cap: nat)
    requires |w| <= cap && Distinct(w) && x !in w
    ensures Distinct(Remember(w, x, cap))
  {
    if |w| < cap {
      AppendDistinct(w, x);
    } else if cap > 0 {
      var v := w[1..];
      assert Distinct(v) by {
        forall i, j | 0 <= i < j < |v|
          ensures v[i] != v[j]
        {
          assert v[i] == w[i + 1] && v[j] == w[j + 1];
        }
      }
      assert x !in v by {
        forall i | 0 <= i < |v|
          ensures v[i] != x
        {
          assert v[i] == w[i + 1];
        }
      }
      AppendDistinct(v, x);
    }
  }

  lemma AppendDistinct<T>(w: seq<T>, x: T)
    requires Distinct(w) && x !in w
    ensures Distinct(w + [x])
  {
    var s := w + [x];
    forall i, j | 0 <= i < j < |s|
      ensures s[i] != s[j]
    {
      assert s[i] == w[i];
      if j < |w| {
        assert s[j] == w[j];
      }
    }
  }

  /** The window after a sequence of messages, oldest first. */
  function Replay<T(==)>(w: seq<T>, xs: seq<T>, cap: nat): (r: seq<T>)
    requires |w| <= cap
    ensures |r| <= cap
    decreases |xs|
  {
    if xs == [] then w else Replay(Deliver(w, xs[0], cap).0, xs[1..], cap)
  }

  /** Cutting to `n` before appending changes nothing in the last `n`. */
  lemma LastNAppend<T>(s: seq<T>, t: seq<T>, n: nat)
    ensures LastN(LastN(s, n) + t, n) == LastN(s + t, n)
  {
    if |s| > n {
      var k := |s| - n;
      var a := s[k..];
      assert LastN(s, n) == a;
      assert a + t == (s + t)[k..];
      assert LastN(a + t, n) == (a + t)[|t|..];
      assert LastN(s + t, n) == (s + t)[k + |t|..];
      assert (s + t)[k..][|t|..] == (s + t)[k + |t|..];
    }
  }

  /**
    * While no id repeats, the window is exactly the last `cap` ids of
    * everything delivered.
    */
  lemma {:induction false} ReplayFresh<T>(w: seq<T>, xs: seq<T>, cap: nat)
    requires |w| <= cap
    requires Distinct(w + xs)
    ensures Replay(w, xs, cap) == LastN(w + xs, cap)
    decreases |xs|
  {
    if xs == [] {
      assert w + xs == w;
    } else {
      var x := xs[0];
      HeadNotEarlier(w, xs);
      var w' := Remember(w, x, cap);
      var full := (w + [x]) + xs[1..];
      assert w + xs == full;
      DistinctSuffix(full, |w + [x]| - |w'|);
      assert full[|w + [x]| - |w'|..] == w' + xs[1..];
      ReplayFresh(w', xs[1..], cap);
      LastNAppend(w + [x], xs[1..], cap);
    }
  }

  /** In a sequence without repeats, the first element after `w` is not in `w`. */
  lemma HeadNotEarlier<T>(w: seq<T>, xs: seq<T>)
    requires xs != [] && Distinct(w + xs)
    ensures xs[0] !in w
  {
    forall i | 0 <= i < |w|
      ensures w[i] != xs[0]
    {
      assert w[i] == (w + xs)[i] && xs[0] == (w + xs)[|w|];
    }
  }

  /** A suffix of a sequence without repeats has none. */
  lemma DistinctSuffix<T>(s: seq<T>, d: nat)
    requires d <= |s| && Distinct(s)
    ensures Distinct(s[d..])
  {
    var t := s[d..];
    forall i, j | 0 <= i < j < |t|
      ensures t[i] != t[j]
    {
      assert t[i] == s[d + i] && t[j] == s[d + j];
    }
  }

  /**
    * A message seen again after fewer than `cap` other messages, repeated or
    * not, is still in the window, so it is dropped.
    */
  lemma RemembersRecent<T>(w: seq<T>, x: T, mid: seq<T>, cap: nat)
    requires |w| <= cap && |mid| < cap && x !in w
    ensures !Deliver(Replay(w, [x] + mid, cap), x, cap).1
  {
    var w' := Deliver(w, x, cap).0;
    assert ([x] + mid)[0] == x && ([x] + mid)[1..] == mid;
    assert Replay(w, [x] + mid, cap) == Replay(w', mid, cap);
    StaysWithin(w', |w'| - 1, mid, x, cap);
  }

  /**
    * The entry at position `p` (0 = oldest) stays through any further
    * deliveries numbering at most `cap - (|w| - p)`: each delivery appends
    * at most one entry. The newest entry survives `cap - 1` of them.
    */
  lemma {:induction false} StaysWithin<T>(w: seq<T>, p: nat, xs: seq<T>, x: T, cap: nat)
    requires |w| <= cap && p < |w| && w[p] == x
    requires |w| - p + |xs| <= cap
    ensures x in Replay(w, xs, cap)
    decreases |xs|
  {
    if xs != [] {
      var y := xs[0];
      var w' := Deliver(w, y, cap).0;
      if y in w {
        StaysWithin(w', p, xs[1..], x, cap);
      } else if |w| < cap {
        assert w' == w + [y];
        assert w'[p] == x;
        StaysWithin(w', p, xs[1..], x, cap);
      } else {
        assert w' == w[1..] + [y];
        assert w'[p - 1] == x;
        StaysWithin(w', p - 1, xs[1..], x, cap);
      }
    }
  }

  /**
    * The window forgets: after `cap` further ids, each new to the window
    * when delivered and none repeated, an id is accepted again, so
    * duplicates are only suppressed within the window.
    */
  lemma ForgetsAfterCapacity<T>(w: seq<T>, ys: seq<T>, x: T, cap: nat)
    requires |w| <= cap && cap <= |ys|
    requires Distinct(w + ys) && x !in ys
    ensures Deliver(Replay(w, ys, cap), x, cap).1
  {
    ReplayFresh(w, ys, cap);
    var tail := ys[|ys| - cap..];
    assert LastN(w + ys, cap) == tail;
    assert x !in tail by {
      forall i | 0 <= i < |tail|
        ensures tail[i] != x
      {
        assert tail[i] == ys[|ys| - cap + i];
      }
    }
  }
}

=== FILE: wrappers.dfy ===
/** Failure-compatible wrappers used for the source's exceptions and optional values. */
module Wrappers {

  datatype Option<+T> = None | Some(value: T) {
    predicate IsFailure() { None? }

    function PropagateFailure<U>(): Option<U>
      requires None?
    {
      None
    }

    function Extract(): T
      requires Some?
    {
      value
    }

    function GetOr(default: T): T {
      match this
      case Some(v) => v
      case None => default
    }
  }

  datatype Result<+R, +E> = Ok(value: R) | Err(error: E) {
    predicate IsFailure() { Err? }

    function PropagateFailure<U>(): Result<U, E>
      requires Err?
    {
      Err(error)
    }

    function Extract(): R
      requires Ok?
    {
      value
    }
  }
}
